=== FILE: README.md ===
# Hangover Club frontend — a Dafny model of its logic

Hangover Club is a Next.js/React application where groups of friends log the drinks they have,
score points for them, organise events and compare one another on a dashboard. The logic of
the frontend lives inside its components and its four reducer-based stores. This project models
that logic as pure Dafny functions over immutable datatypes and proves properties of it:

- **Pagination.** The page selector: which page numbers and `...` markers are shown. The
  pagination hook's page and page size.
- **Dashboard.** The group's headline totals. The top-ten ranking by points. The per-drink-type
  and per-time-of-day tables.
- **Ranking, drink and event lists.** Member normalisation. The stable sorts with their
  ascending/descending toggle. The event filters all/upcoming/current/past.
- **Event card.** The event's status and duration. Its confirmed attendees. The current
  user's attendance status. The empty-comment guard.
- **Group statistics.** The counts, plus the per-member and per-event averages.
- **Stores.** The group, drink, event and authentication reducers as `(State, Action) -> State`
  functions. The authentication reducer also reports what it writes to the browser's storage.
- **Forms.** The event form (its fields, time window and image checks), the drink form and the
  registration page.

Modules:

| module | file | what it models |
|---|---|---|
| `Wrappers` | wrappers.dfy | `Option` (JavaScript's `null`/`undefined`) |
| `Seqs` | seqs.dfy | `filter`, counting, `map` with a rewrite, sums |
| `Sorting` | sorting.dfy | `Array.prototype.sort` with a comparator: a stable insertion sort; the sort-toggle state |
| `Text` | text.dfy | `String.prototype.trim` and `parseInt` |
| `Domain` | domain.dfy | users, members, groups, drinks, attendees, comments, events |
| `Pagination` | pagination.dfy | the page selector and the pagination hook |
| `Dashboard` | dashboard.dfy | the dashboard's effects and tables |
| `RankingList`, `DrinkList`, `EventList` | ranking_list.dfy, drink_list.dfy, event_list.dfy | the three sorted lists |
| `EventItem` | event_item.dfy | the event card |
| `GroupStats` | group_stats.dfy | the statistics panel |
| `GroupStore`, `DrinkStore`, `EventStore`, `AuthStore` | group_store.dfy, drink_store.dfy, event_store.dfy, auth_store.dfy | the reducers |
| `Submission` | submission.dfy | what a form does with the store call's result |
| `EventForm`, `DrinkForm`, `RegisterPage` | event_form.dfy, drink_form.dfy, register_page.dfy | the forms |

Conventions:

- **Sorting.** JavaScript's sort is stable. A comparator returning NaN counts as returning 0.
  So a sort is modelled as an insertion sort driven by a comparator `(T, T) -> real`. A NaN
  result is modelled as `0.0`.
  - "Sorted" is stated as `Ordered` (non-increasing or non-decreasing in a key).
  - "Stable" is stated as `Ties`: the subsequence of elements with a given key value is the
    same before and after.
  - "A permutation" is stated as equality of multisets.
- **Numbers.**
  - Points, litres and totals are `real`.
  - Counts are `nat`.
  - Amounts in millilitres and instants in milliseconds are `int`.
  - A missing number read with `x || 0` is `Option<real>` read by `OrZero`.
- **Time.** Dates are instants in milliseconds. The current time `now` is a parameter. So is the
  local-hour conversion `localHour`, since the time zone is outside the model.

## Model

| member | source | states |
|---|---|---|
| Pagination.FewPagesAllListed | hangover-club-frontend-vercel/src/components/common/Pagination.js:17-22 | with at most five pages the selector is exactly pages 1..totalPages in order (empty for totalPages <= 0) |
| Pagination.MiddleRun | hangover-club-frontend-vercel/src/components/common/Pagination.js:31-42 | with more than five pages, for any current page, the middle run is exactly three consecutive pages inside [2, totalPages-1] |
| Pagination.ManyPagesShape | hangover-club-frontend-vercel/src/components/common/Pagination.js:27-62 | with more than five pages the selector is page 1, a `...` exactly when the run starts after 2, the run, a `...` exactly when it ends before totalPages-1, and the last page |
| Pagination.ManyPagesWellFormed | hangover-club-frontend-vercel/src/components/common/Pagination.js:28-62 | with more than five pages: 6 or 7 entries, first is page 1, last is totalPages, all pages real, strictly increasing, `...` exactly between two pages more than one apart and never at an end, and the current page listed when it is a real page |
| Pagination.MiddleNearEdges | hangover-club-frontend-vercel/src/components/common/Pagination.js:35-42 | near the start (current <= 2) the run is 2..4; near the end (current >= totalPages-1) it is totalPages-3..totalPages-1 |
| Pagination.SelectorWellFormed | hangover-club-frontend-vercel/src/components/common/Pagination.js:12-65 | for more than one page the selector starts at 1, ends at totalPages, lists only real pages and is well spaced |
| Pagination.Render | hangover-club-frontend-vercel/src/components/common/Pagination.js:67-70 | nothing is rendered exactly when totalPages <= 1; otherwise a well-formed selector |
| Pagination.ChangePage | src/hooks/usePagination.js:63-65 | changing page sets the page and keeps the page size |
| Pagination.ChangeLimit | src/hooks/usePagination.js:68-71 | changing the page size sets it and returns to page 1 |
| Domain.OrZero | src/components/dashboard/Dashboard.js:38-41 | `x \|\| 0`: a missing value reads as 0, a present one as itself |
| Dashboard.GroupTotals | src/components/dashboard/Dashboard.js:37-42 | each headline total is the group's total, or 0 when missing |
| Dashboard.Ranking | src/components/dashboard/Dashboard.js:45-55 | the ranking has min(10, n) members, drawn from the group (sub-multiset), in non-increasing points |
| Dashboard.RankingIsTop | src/components/dashboard/Dashboard.js:49-55 | no member left out of the top ten has more points than any member in it |
| Dashboard.RankingIsStable | src/components/dashboard/Dashboard.js:49-53 | members with equal points keep their group order in the ranking |
| Dashboard.TallyMatches | src/components/dashboard/Dashboard.js:63-76 | the type table has one row per distinct drink type, holding exactly that type's count, litres (amount/1000) and points |
| Dashboard.TallyFirstOccurrence | src/components/dashboard/Dashboard.js:64-81 | before sorting, rows appear in the order their types first occur among the drinks |
| Dashboard.TallySums | src/components/dashboard/Dashboard.js:64-76 | the rows' counts sum to the number of drinks, litres and points to those of all drinks |
| Dashboard.KindStatsRows | src/components/dashboard/Dashboard.js:63-86 | the published type table has as many rows as distinct types, one per type, each with that type's totals |
| Dashboard.KindStatsSums | src/components/dashboard/Dashboard.js:63-86 | the published table's counts sum to the number of drinks; litres and points sum to the drinks' totals |
| Dashboard.KindStatsOrder | src/components/dashboard/Dashboard.js:83-84 | the type table is by non-increasing count, and types with equal counts keep first-occurrence order |
| Dashboard.PeriodIsQuarterFromSix | src/components/dashboard/Dashboard.js:98-108 | within a day, hours [6,12) are morning, [12,18) afternoon, [18,24) evening, [0,6) night |
| Dashboard.PeriodOutsideDay | src/components/dashboard/Dashboard.js:98-108 | an hour is night exactly when it is below 6 or at least 24 (any invalid hour is night) |
| Dashboard.TimeStats | src/components/dashboard/Dashboard.js:89-120 | the time table always has four rows, morning, afternoon, evening, night |
| Dashboard.TimeStatsHeadings | src/components/dashboard/Dashboard.js:115-120 | the four rows are headed `Manhã (6-12h)`, `Tarde (12-18h)`, `Noite (18-24h)`, `Madrugada (0-6h)`, in that order |
| Dashboard.TimeStatsMatch | src/components/dashboard/Dashboard.js:96-113 | each time row holds exactly the count, litres and points of the drinks of its period |
| Dashboard.TimeStatsSums | src/components/dashboard/Dashboard.js:96-113 | the time rows' counts sum to the number of drinks, litres and points to those of all drinks |
| Dashboard.InitialView | src/components/dashboard/Dashboard.js:14-22 | zero totals and empty ranking and tables before anything loads |
| Dashboard.OnGroupChange | src/components/dashboard/Dashboard.js:35-58 | without a group nothing changes; with one the totals are its totals and, when it has members, the ranking is recomputed; drink tables untouched |
| Dashboard.OnDrinksChange | src/components/dashboard/Dashboard.js:60-122 | an empty drink list leaves everything as it was; otherwise both tables are recomputed and the totals and ranking kept |
| RankingList.NormaliseUser | src/components/dashboard/RankingList.js:32-38 | each of the four totals becomes present, kept when present and 0 when missing; id, name and points unchanged |
| RankingList.NormaliseMembers | src/components/dashboard/RankingList.js:30-39 | every member is kept in place with its role, only its user normalised |
| RankingList.Minus | src/components/dashboard/RankingList.js:44-46 | the difference of two present values; NaN (an absent, `undefined` value) compares as 0 |
| RankingList.SortedMembers | src/components/dashboard/RankingList.js:30-50 | the shown list is a permutation of the normalised members |
| RankingList.ComparatorRealises | src/components/dashboard/RankingList.js:42-48 | on members whose field is present, the comparator is `b - a` for descending and `a - b` for ascending |
| RankingList.SortedByTotal | src/components/dashboard/RankingList.js:42-48 | sorting by any of the four totals gives the chosen order, equal values keeping group order |
| RankingList.SortedByPresentPoints | src/components/dashboard/RankingList.js:42-48 | sorting by `points` when every user has it gives the chosen order, stably |
| RankingList.SortedByMissingPoints | src/components/dashboard/RankingList.js:30-48 | sorting by `points` when no user has it (never filled in) leaves the members in group order |
| RankingList.OnChange | src/components/dashboard/RankingList.js:27-52 | without a group the list is kept; with one it becomes a permutation of its normalised members |
| Sorting.Toggle | src/components/dashboard/RankingList.js:54-63 | `handleSortChange` (the drink list's, src/components/drinks/DrinkList.js:48-57, is the same): the clicked field becomes the sort field; the same field flips the order, another field starts descending |
| Sorting.ToggleTwice | src/components/drinks/DrinkList.js:48-57 | clicking the current field twice restores the sort state |
| Sorting.SortCorrect | src/components/dashboard/Dashboard.js:49-53 | a sort whose comparator is a key difference is a permutation, ordered by the key, and stable |
| Sorting.SortKeepsOrder | src/components/dashboard/RankingList.js:42-48 | a comparator that reports every pair as tied (0, or NaN read as 0) leaves the list as it is |
| DrinkList.SelectList | src/components/drinks/DrinkList.js:25 | the event's drinks exactly when an event id is given (truthy), the group's otherwise |
| DrinkList.SortedDrinks | src/components/drinks/DrinkList.js:28-45 | the shown list is a permutation of the selected list |
| DrinkList.ComparatorRealises | src/components/drinks/DrinkList.js:29-40 | for date, points and amount the comparator is the key difference in the chosen direction |
| DrinkList.SortedByKey | src/components/drinks/DrinkList.js:28-43 | sorting by date, points or amount orders by that key (newest/highest first when descending), stably |
| DrinkList.UnknownKeyKeepsOrder | src/components/drinks/DrinkList.js:42 | an unrecognised sort field leaves the selected list in its order |
| DrinkList.FirstClick | src/components/drinks/DrinkList.js:12-13 | from the initial date/descending state, clicking date gives ascending and any other field gives that field descending |
| EventList.Filtered | src/components/events/EventList.js:21-31 | the filtered list is a sub-multiset of the group's events, all kept by the filter |
| EventList.Shown | src/components/events/EventList.js:17-45 | the shown list is drawn from the group's events and every shown event passes the filter |
| EventList.ShownIffKept | src/components/events/EventList.js:23-31 | an event is shown exactly when the filter keeps it (upcoming: start > now; current: start <= now <= end; past: end < now) |
| EventList.AllShowsEverything | src/components/events/EventList.js:21-31 | any other filter value, `all` included, shows a permutation of all events |
| EventList.ShownOrder | src/components/events/EventList.js:34-42 | `past` is ordered by end date, latest first; every other filter by start date, earliest first; ties keep their order |
| EventList.FiltersMatchStatus | src/components/events/EventList.js:23-31 | for an event with start <= end, each filter keeps it exactly when the card shows the matching status |
| EventList.InvertedWindowInTwoFilters | src/components/events/EventList.js:23-31 | an event ending before it starts can be in both `upcoming` and `past` at once |
| EventItem.StatusOf | src/components/events/EventItem.js:61 | future iff now < start; past iff start <= now and end < now; current iff start <= now <= end |
| EventItem.StatusPartitionsTime | src/components/events/EventItem.js:61 | for start <= end, future, current and past are now < start, start <= now <= end and end < now |
| EventItem.StatusMonotone | src/components/events/EventItem.js:61 | as time passes an event never goes back from current to future or leaves past |
| EventItem.DurationHours | src/components/events/EventItem.js:64 | duration times 3,600,000 is end - start; it is non-negative when start <= end |
| EventItem.DurationOfWholeHours | src/components/events/EventItem.js:64 | an event lasting h whole hours has duration exactly h |
| EventItem.ShowsAttendanceButtons | src/components/events/EventItem.js:150 | the attendance buttons are shown exactly while the event is not over |
| EventItem.Confirmed | src/components/events/EventItem.js:194 | the listed participants are exactly the attendees whose status is `sim` |
| EventItem.ConfirmedCount | src/components/events/EventItem.js:191 | the participant count is the number of attendees with status `sim`, at most the number of attendees |
| EventItem.FindAttendee | src/components/events/EventItem.js:19-21 | `find` returns the first attendee with the user's id, or none when no attendee has it |
| EventItem.SyncUserStatus | src/components/events/EventItem.js:17-26 | with a user who is an attendee the shown status becomes the first matching attendee's; otherwise it is kept |
| EventItem.FreshCardStatus | src/components/events/EventItem.js:15-26 | a user who is not an attendee sees `talvez` |
| EventItem.SubmitComment | src/components/events/EventItem.js:46-55 | a comment is sent exactly when it is not all white space; it is sent untrimmed and the box is cleared |
| Text.TrimEmptyIffBlank | src/components/events/EventItem.js:49 | `s.trim()` is empty exactly when every character of `s` is white space |
| Text.ParseIntReadsNumeral | src/components/drinks/DrinkForm.js:58 | `parseInt` reads back any integer's numeral, ignoring what follows when it does not continue the number |
| GroupStats.InitialStats | src/components/dashboard/GroupStats.js:14-21 | all statistics start at zero |
| GroupStats.OnChange | src/components/dashboard/GroupStats.js:35-49 | without a group nothing changes; with one the totals are its totals (missing as 0), totalEvents the number of events, upcomingEvents the number starting after now |
| GroupStats.UpcomingAtMostTotal | src/components/dashboard/GroupStats.js:38-46 | the upcoming count never exceeds the number of events |
| GroupStats.UpcomingAgreesWithList | src/components/dashboard/GroupStats.js:38 | the upcoming count is the length of the list's `upcoming` filter |
| GroupStats.PerMember | src/components/dashboard/GroupStats.js:96-98 | an average exists exactly when there are members, and times the member count gives the total |
| GroupStats.AveragesPerMember | src/components/dashboard/GroupStats.js:96-122 | without members no average is shown (`0`); with members each average times the member count is its total |
| GroupStats.AveragesPerEvent | src/components/dashboard/GroupStats.js:130-150 | the per-event section exists exactly when there are events, and each average times the event count is its total |
| GroupStore.InitialState | src/context/group/GroupContext.js:10-15 | no groups, no current group, loading, no error |
| GroupStore.ReplaceGroup | src/context/group/GroupContext.js:41-43 | same length and ids; exactly the groups with the payload's id become the payload, the others are unchanged |
| GroupStore.WithoutMember | src/context/group/GroupContext.js:61-63 | no remaining member has the removed id; every other member is kept |
| GroupStore.Reduce | src/context/group/GroupContext.js:18-86 | per action: prepend on create, replace-by-id and current group on update, only `members` changed on add/remove, error/loading only on error/clear/set-loading, unknown action changes nothing |
| GroupStore.UpdateIdempotent | src/context/group/GroupContext.js:38-46 | updating the same group twice is updating it once |
| GroupStore.RemoveIdempotent | src/context/group/GroupContext.js:56-66 | removing the same member twice is removing it once |
| DrinkStore.InitialState | src/context/drink/DrinkContext.js:10-16 | empty lists, loading, no error |
| DrinkStore.WithComments | src/context/drink/DrinkContext.js:49-58 | same length; only drinks with the id get the new comments, and nothing else of them changes |
| DrinkStore.Reduce | src/context/drink/DrinkContext.js:19-80 | each load replaces only its list; add prepends to `drinks` and `groupDrinks`; comments touch both by id; `eventDrinks` untouched by both; error/loading actions and unknown actions as stated |
| DrinkStore.AddCommentIdempotent | src/context/drink/DrinkContext.js:46-60 | adding the same comments twice is adding them once |
| DrinkStore.AddDrinkAddsPoints | src/context/drink/DrinkContext.js:39-45 | adding a drink raises the group's summed points by exactly its points |
| DrinkStore.AddCommentKeepsPoints | src/context/drink/DrinkContext.js:46-60 | adding comments leaves the group's summed points unchanged |
| EventStore.InitialState | src/context/event/EventContext.js:10-16 | empty lists, no current event, loading, no error |
| EventStore.ReplaceEvent | src/context/event/EventContext.js:42-44 | same length and ids; exactly the events with the payload's id become the payload |
| EventStore.Reduce | src/context/event/EventContext.js:19-85 | `events` never changes; per action: load, prepend, replace-by-id, attendees or comments of the current event only, error/loading only, unknown changes nothing |
| EventStore.UpdateIdempotent | src/context/event/EventContext.js:39-47 | updating the same event twice is updating it once |
| EventStore.AttendanceAndCommentsCommute | src/context/event/EventContext.js:48-65 | setting attendees then comments equals setting comments then attendees |
| EventStore.CreateCountsUpcoming | src/context/event/EventContext.js:33-38 | creating an event raises the count of events starting after now by one exactly when it starts after now |
| AuthStore.InitialState | src/context/auth/AuthContext.js:12-18 | no token, not authenticated, loading, no user, no error |
| AuthStore.Reduce | src/context/auth/AuthContext.js:21-60 | user loaded sets user and authenticated; a success sets the token and stores it; every failure or logout clears token and user, sets the error and removes the stored token; clear-error only the error; unknown nothing |
| AuthStore.Apply | src/context/auth/AuthContext.js:30-51 | a storage write leaves, sets or removes the stored token |
| AuthStore.WriteMirrorsToken | src/context/auth/AuthContext.js:30-51 | after any success or failure the stored token is the state's token |
| AuthStore.StorageStaysInStep | src/context/auth/AuthContext.js:21-60 | if the stored token matched the state's before an action, it still does after |
| AuthStore.ReduceKeepsConsistent | src/context/auth/AuthContext.js:21-60 | a signed-out state holds neither a token nor a user: the initial state is such, and every action keeps it so |
| AuthStore.FailThenLogin | src/context/auth/AuthContext.js:30-51 | a failed login followed by a successful one ends authenticated, with the new token, no user until it is loaded, and the failure's message kept |
| Submission.AfterCall | src/components/events/EventForm.js:93-103 | a truthy result navigates to the group's page; a falsy result or an exception shows the failure message |
| EventForm.InitialForm | src/components/events/EventForm.js:15-25 | empty fields with the group's id |
| EventForm.OnSubmit | src/components/events/EventForm.js:62-91 | rejected for a missing required field; else rejected when end <= start; else a failure for an invalid date; else the payload with the two instants and the form's fields |
| EventForm.OptionalFieldsIgnored | src/components/events/EventForm.js:65 | description and image never decide whether the form is sent |
| EventForm.SentWindowWellFormed | src/components/events/EventForm.js:71-77 | an event the form sends starts before it ends, has positive duration, and the list's upcoming, current and past filters each keep it exactly when its card shows the matching status |
| EventForm.AfterCreate | src/components/events/EventForm.js:93-103 | navigate to `/groups/{id}` exactly on a truthy result, otherwise the creation error |
| EventForm.CheckImage | src/components/events/EventForm.js:37-51 | no file does nothing; a type not starting with `image/` is refused; an image over 5,242,880 bytes is refused; otherwise accepted |
| DrinkForm.InitialForm | src/components/drinks/DrinkForm.js:16-24 | empty fields, type `Cerveja` (the first selectable type), the group's id |
| DrinkForm.OnSubmit | src/components/drinks/DrinkForm.js:39-60 | sent exactly when name, brand, amount and photo are non-empty; the photo message never appears; the payload carries `parseInt(amount)`, the event id and the other fields unchanged |
| DrinkForm.TypedAmountSent | src/components/drinks/DrinkForm.js:56-60 | an amount typed as an integer's numeral is sent as that integer |
| DrinkForm.NonPositiveAmountSent | src/components/drinks/DrinkForm.js:42-60 | amounts `0` and `-350` pass the checks and are sent as 0 and -350 |
| DrinkForm.AfterAdd | src/components/drinks/DrinkForm.js:62-72 | navigate to `/groups/{id}` exactly on a truthy result, otherwise the registration error |
| RegisterPage.InitialPage | src/app/register/page.js:12-19 | empty fields and no password error |
| RegisterPage.SetField | src/app/register/page.js:23-24 | a change sets exactly the named field |
| RegisterPage.OnChange | src/app/register/page.js:23-27 | a change sets the field, clears the password error and the auth error, and touches nothing else |
| RegisterPage.OnSubmit | src/app/register/page.js:29-44 | `register` is called exactly when the passwords match, with name, email and password only; otherwise the mismatch error is set |
| RegisterPage.RetypeAfterMismatch | src/app/register/page.js:23-35 | after a mismatch, retyping the confirmation to match clears the error and the next submit calls `register` |
| RegisterPage.Render | src/app/register/page.js:47-50 | an authenticated visitor is redirected to `/groups`; anyone else sees the form |

## Left out

- Rendering: JSX, styling, loading spinners, `toLocaleDateString`, and `toFixed` display rounding.
  Averages are exact `real` quotients.
- Number representation: JavaScript numbers are floating point; here totals, litres and points are
  `real`, so rounding, `Infinity` and NaN arithmetic are not modelled. A NaN comparator result
  is modelled as 0 where it arises from an absent (`undefined`) field; a `null` field is not
  modelled (see RankingList.Minus below).
- Dates and the clock: `new Date()` is the parameter `now`. Dates are instants in milliseconds.
  `getHours()` is the parameter `localHour`. Parsing the form's date and time is an `Option<int>`
  input, `None` for an invalid date. `toISOString` is the identity on instants.
- Network and async plumbing: the axios action creators, `loadUser`, `router.push` (modelled as
  a `Navigate` outcome), and the `loading` flags the components set around calls.
- AuthStore.Reduce: the startup effect that reads the stored token and dispatches
  `USER_LOADED` or `AUTH_ERROR` (src/context/auth/AuthContext.js:67-75) is not modelled. Only
  the writes the reducer performs are returned, as a `StorageWrite`.
- GroupStore.Reduce: `REMOVE_MEMBER` with no current group throws in JavaScript. It is excluded
  by a precondition (`Dispatchable`), not modelled as an exception.
- GroupStore.Reduce: `ADD_MEMBER` with no current group builds `{...null, members}`, a group with
  only `members`. It is modelled by `GroupWithMembersOnly`, whose other fields are empty strings
  and missing totals rather than absent keys.
- EventStore.Reduce: `UPDATE_ATTENDANCE` / `ADD_COMMENT` with no current event likewise use
  `BlankEvent`, whose dates are 0 rather than absent.
- Domain: `members`, `attendees` and `comments` are always present arrays. The source's guards for
  them being absent (`currentGroup.members &&`, `event.attendees?.`) take the present branch.
- Dashboard.TallyFirstOccurrence: `Object.keys` lists integer-like keys first in numeric order.
  The model uses first-occurrence order for every type, which matches for the drink types the
  form offers (none is integer-like). The restriction given for Dashboard.TallyMatches applies too.
- Dashboard.TallyMatches: the tally is a plain object, so a drink type that names an inherited
  `Object.prototype` member (`constructor`, `toString`, `hasOwnProperty`, `__proto__`, ...) finds a
  truthy value at src/components/dashboard/Dashboard.js:65. Its `+=` updates then land on that
  inherited value, and `Object.keys` gives that type no row. The model gives every type its own row,
  which agrees with the source for the six types the drink form offers.
- Dashboard.TallySums: the row sums equal the totals over all drinks only when no drink type names
  an inherited `Object.prototype` member, for the reason given for Dashboard.TallyMatches.
- Dashboard.KindStatsSums: the same restriction as Dashboard.TallySums.
- Dashboard.KindStatsRows: the same restriction as Dashboard.TallyMatches: a type that names an
  inherited `Object.prototype` member has a row in the model and none in the source.
- Dashboard.KindStatsOrder: rows with equal counts keep the tally's order, which in the source
  lists integer-like types first in numeric order (see Dashboard.TallyFirstOccurrence). For drinks
  of type `Vinho` then `2`, one each, the source shows `2` first and the model `Vinho`. The
  restriction given for Dashboard.TallyMatches applies too.
- RankingList.SortedMembers: when only some members carry `points`, the comparator at
  src/components/dashboard/RankingList.js:42-48 gives NaN for some pairs and numbers for others.
  It is then not a consistent comparator, and ECMAScript leaves the order of `Array.prototype.sort`
  implementation-defined. The model still yields the stable insertion-sort order. The source defines
  the order only when every member has the field or none has it, which are the cases
  RankingList.SortedByPresentPoints and RankingList.SortedByMissingPoints state.
- RankingList.Minus: `None` stands for a field absent from the payload (`undefined`), whose
  difference is NaN and compares as 0. A user sent with `points: null` is not modelled: JavaScript
  subtracts `null` as 0, so `5 - null` is 5 and that user sorts as if it had 0 points, whereas the
  model reads the pair as tied.
- GroupStats.AveragesPerMember: src/components/dashboard/GroupStats.js:96 reads
  `currentGroup.members` without checking `currentGroup`. If `getGroup` fails, `currentGroup` stays
  null while `loading` becomes false (lines 24-30), and rendering throws a TypeError. The model takes
  the loaded group's members, so that failed render is not modelled.
- Text.ParseIntReadsNumeral: `parseInt` on a numeral beyond 2^53 loses precision in JavaScript.
  The model reads it exactly.
- File reading: the `FileReader` preview and the data URL put into `eventImage`
  (src/components/events/EventForm.js:53-58).
- The attendance setter `handleAttendanceChange`: it awaits the store and then sets the shown
  status. Only the status the card starts with and syncs to is modelled.
- The scoring table in the ranking page is display text. Points come from the server with each
  drink.
- Firebase, image uploaders, the cache, configuration, navigation bar and the other pages.

=== FILE: auth_store.dfy ===
/**
 * The authentication store: the session token, whether the user is signed in, the loaded user
 * and the last error. Success and failure actions also write the token to the browser's storage;
 * the reducer returns that write alongside the new state.
 */
module AuthStore {
  import opened Wrappers
  import opened Domain

  datatype State = State(token: Option<string>, isAuthenticated: bool, loading: bool,
                         user: Option<User>, error: Option<string>)

  /** No token, signed out, loading, no user, no error. */
  function InitialState(): (s: State)
    ensures s.token.None? && !s.isAuthenticated && s.loading && s.user.None? && s.error.None?
  {
    State(None, false, true, None, None)
  }

  /** The failure actions carry the message to show; `LOGOUT`, and `AUTH_ERROR` at start-up
      without a stored token, carry none. */
  datatype Action =
    | UserLoaded(user: User)
    | LoginSuccess(token: string)
    | RegisterSuccess(token: string)
    | AuthError(message: Option<string>)
    | LoginFail(message: Option<string>)
    | RegisterFail(message: Option<string>)
    | Logout(message: Option<string>)
    | ClearError
    | Unknown(kind: string)

  predicate IsSuccess(a: Action) {
    a.LoginSuccess? || a.RegisterSuccess?
  }

  predicate IsFailure(a: Action) {
    a.AuthError? || a.LoginFail? || a.RegisterFail? || a.Logout?
  }

  /** What the step does to the stored `token` item. */
  datatype StorageWrite = Untouched | Store(token: string) | Remove

  datatype Step = Step(state: State, write: StorageWrite)

  /** The reducer, with the storage write it performs. */
  function Reduce(s: State, a: Action): (r: Step)
    ensures a.UserLoaded? ==> r.state == s.(isAuthenticated := true, loading := false, user := Some(a.user))
    ensures IsSuccess(a) ==> r.state == s.(token := Some(a.token), isAuthenticated := true, loading := false)
    ensures IsFailure(a) ==> r.state == State(None, false, false, None, a.message) && r.write == Remove
    ensures IsSuccess(a) ==> r.write == Store(a.token)
    ensures a.ClearError? ==> r.state == s.(error := None)
    ensures a.Unknown? ==> r.state == s
    ensures !IsSuccess(a) && !IsFailure(a) ==> r.write == Untouched
  {
    match a
    case UserLoaded(user) => Step(s.(isAuthenticated := true, loading := false, user := Some(user)), Untouched)
    case LoginSuccess(token) => Step(s.(token := Some(token), isAuthenticated := true, loading := false), Store(token))
    case RegisterSuccess(token) => Step(s.(token := Some(token), isAuthenticated := true, loading := false), Store(token))
    case AuthError(message) => SignedOut(s, message)
    case LoginFail(message) => SignedOut(s, message)
    case RegisterFail(message) => SignedOut(s, message)
    case Logout(message) => SignedOut(s, message)
    case ClearError => Step(s.(error := None), Untouched)
    case Unknown(_) => Step(s, Untouched)
  }

  /** The four failure actions share one branch: the session is dropped. */
  function SignedOut(s: State, message: Option<string>): Step {
    Step(s.(token := None, isAuthenticated := false, loading := false, user := None, error := message), Remove)
  }

  /** The stored token after a write. */
  function Apply(stored: Option<string>, w: StorageWrite): (r: Option<string>)
    ensures w.Untouched? ==> r == stored
    ensures w.Store? ==> r == Some(w.token)
    ensures w.Remove? ==> r.None?
  {
    match w
    case Untouched => stored
    case Store(token) => Some(token)
    case Remove => None
  }

  /** After a success or a failure the stored token is the state's token. */
  lemma WriteMirrorsToken(s: State, a: Action, stored: Option<string>)
    requires IsSuccess(a) || IsFailure(a)
    ensures Apply(stored, Reduce(s, a).write) == Reduce(s, a).state.token
  {
  }

  /** Once the stored token agrees with the state, every action keeps them in agreement. */
  lemma StorageStaysInStep(s: State, a: Action, stored: Option<string>)
    requires stored == s.token
    ensures Apply(stored, Reduce(s, a).write) == Reduce(s, a).state.token
  {
  }

  /** A signed-out state holds neither a token nor a user. */
  predicate Consistent(s: State) {
    !s.isAuthenticated ==> s.token.None? && s.user.None?
  }

  /** The store starts consistent and every action keeps it so. */
  lemma ReduceKeepsConsistent(s: State, a: Action)
    requires Consistent(s)
    ensures Consistent(InitialState())
    ensures Consistent(Reduce(s, a).state)
  {
  }

  /** Signing out and back in: a failure followed by a success leaves a signed-in state holding the
      new token, no user until it is loaded again, and the failure's message. */
  lemma FailThenLogin(s: State, message: Option<string>, token: string)
    ensures Reduce(Reduce(s, LoginFail(message)).state, LoginSuccess(token)).state
            == State(Some(token), true, false, None, message)
  {
  }
}

=== FILE: dashboard.dfy ===
/**
 * The group dashboard: the headline totals, the top-ten member ranking by points, and the
 * drink statistics per drink type and per time of day.
 *
 * The hour of a drink is the local-time hour of its instant; the time zone is outside the
 * model, so the aggregation takes the conversion `localHour` as a parameter. Whatever it
 * returns outside `0..23` (an invalid date gives NaN in the source) counts as night.
 */
module Dashboard {
  import opened Wrappers
  import opened Seqs
  import opened Sorting
  import opened Domain

  // ---------------------------------------------------------------- headline totals

  datatype Totals = Totals(totalDrinks: real, totalLiters: real, totalPoints: real, totalPartyHours: real)

  /** The group's running totals, each missing one read as 0. */
  function GroupTotals(g: Group): (t: Totals)
    ensures t.totalDrinks == OrZero(g.totalDrinks) && t.totalLiters == OrZero(g.totalLiters)
    ensures t.totalPoints == OrZero(g.totalPoints) && t.totalPartyHours == OrZero(g.totalPartyHours)
  {
    Totals(OrZero(g.totalDrinks), OrZero(g.totalLiters), OrZero(g.totalPoints), OrZero(g.totalPartyHours))
  }

  // ---------------------------------------------------------------- ranking

  /** Number of members the dashboard ranks. */
  const TopN := 10

  /** A member's points, 0 when the total is missing. */
  function PointsOf(m: Member): real {
    OrZero(m.user.totalPoints)
  }

  /** `(a, b) => (b.user.totalPoints || 0) - (a.user.totalPoints || 0)` */
  function ByPointsDesc(): (Member, Member) -> real {
    KeyComparator(PointsOf, Desc)
  }

  function Min(a: int, b: int): int { if a <= b then a else b }

  /** The first `TopN` members of the stable sort by points, highest first. */
  function Ranking(members: seq<Member>): (r: seq<Member>)
    ensures |r| == Min(TopN, |members|)
    ensures multiset(r) <= multiset(members)
    ensures Ordered(r, PointsOf, Desc)
  {
    var sorted := Sort(members, ByPointsDesc());
    KeyComparatorRealises(PointsOf, Desc, members);
    SortCorrect(members, ByPointsDesc(), PointsOf, Desc);
    assert sorted == sorted[..Min(TopN, |members|)] + sorted[Min(TopN, |members|)..];
    sorted[..Min(TopN, |members|)]
  }

  /** The elements of a prefix that tie on a key are a prefix of the whole sequence's ties. */
  lemma TiesOfPrefix<T>(s: seq<T>, n: nat, key: T -> real, v: real)
    requires n <= |s|
    ensures Ties(s[..n], key, v) <= Ties(s, key, v)
  {
    assert s == s[..n] + s[n..];
    TiesAppend(s[..n], s[n..], key, v);
  }

  /** What a prefix leaves over is exactly the suffix. */
  lemma PrefixRemainder<T>(s: seq<T>, n: nat)
    requires n <= |s|
    ensures multiset(s) - multiset(s[..n]) == multiset(s[n..])
  {
    assert s == s[..n] + s[n..];
  }

  /** Nobody left out of the ranking has more points than anybody in it. */
  lemma RankingIsTop(members: seq<Member>)
    ensures forall x, y | x in Ranking(members) && y in multiset(members) - multiset(Ranking(members)) ::
              PointsOf(y) <= PointsOf(x)
  {
    var sorted := Sort(members, ByPointsDesc());
    KeyComparatorRealises(PointsOf, Desc, members);
    SortCorrect(members, ByPointsDesc(), PointsOf, Desc);
    var n := Min(TopN, |members|);
    PrefixRemainder(sorted, n);
    PrefixPrecedes(sorted, n, PointsOf, Desc);
    assert Ranking(members) == sorted[..n];
    forall x, y | x in sorted[..n] && y in multiset(sorted[n..]) ensures PointsOf(y) <= PointsOf(x) {
      assert y in sorted[n..];
    }
  }

  /** Members with equal points appear in the ranking in the order they have in the group. */
  lemma RankingIsStable(members: seq<Member>)
    ensures forall v :: Ties(Ranking(members), PointsOf, v) <= Ties(members, PointsOf, v)
  {
    var sorted := Sort(members, ByPointsDesc());
    KeyComparatorRealises(PointsOf, Desc, members);
    SortCorrect(members, ByPointsDesc(), PointsOf, Desc);
    var n := Min(TopN, |members|);
    assert Ranking(members) == sorted[..n];
    forall v ensures Ties(sorted[..n], PointsOf, v) <= Ties(members, PointsOf, v) {
      TiesOfPrefix(sorted, n, PointsOf, v);
    }
  }

  // ---------------------------------------------------------------- per drink type

  /** One row of the per-type table. */
  datatype KindStat = KindStat(kind: string, count: nat, liters: real, points: real)

  function Liters(d: Drink): real { d.amount as real / 1000.0 }
  function PointsOfDrink(d: Drink): real { d.points }
  function CountOf(row: KindStat): real { row.count as real }
  function LitersOf(row: KindStat): real { row.liters }
  function PointsOfRow(row: KindStat): real { row.points }

  /** The drink types occurring in `ds`. */
  ghost function DrinkKinds(ds: seq<Drink>): set<string> {
    set i | 0 <= i < |ds| :: ds[i].kind
  }

  /** The types listed in a table. */
  ghost function KindsOf(rows: seq<KindStat>): set<string> {
    set i | 0 <= i < |rows| :: rows[i].kind
  }

  /** Number of drinks of type `k`. */
  function CountKind(ds: seq<Drink>, k: string): nat {
    if |ds| == 0 then 0
    else CountKind(ds[..|ds| - 1], k) + (if ds[|ds| - 1].kind == k then 1 else 0)
  }

  /** Sum of `f` over the drinks of type `k`. */
  function KindSum(ds: seq<Drink>, k: string, f: Drink -> real): real {
    if |ds| == 0 then 0.0
    else KindSum(ds[..|ds| - 1], k, f) + (if ds[|ds| - 1].kind == k then f(ds[|ds| - 1]) else 0.0)
  }

  /** Index of the first drink of type `k`. */
  ghost function FirstIndex(ds: seq<Drink>, k: string): (r: nat)
    requires k in DrinkKinds(ds)
    ensures r < |ds| && ds[r].kind == k
    ensures forall j :: 0 <= j < r ==> ds[j].kind != k
  {
    var n := |ds| - 1;
    if k in DrinkKinds(ds[..n]) then
      var r := FirstIndex(ds[..n], k);
      assert ds[..n][r] == ds[r];
      assert forall j :: 0 <= j < r ==> ds[..n][j] == ds[j];
      r
    else
      assert forall j :: 0 <= j < n ==> ds[j] == ds[..n][j];
      assert forall j :: 0 <= j < n ==> ds[j].kind in DrinkKinds(ds[..n]);
      n
  }

  /** Position of the row of type `k`, or `|rows|` when there is none. */
  function RowOf(rows: seq<KindStat>, k: string): (i: nat)
    ensures i <= |rows|
    ensures i < |rows| ==> rows[i].kind == k
    ensures i == |rows| ==> forall j :: 0 <= j < |rows| ==> rows[j].kind != k
  {
    if |rows| == 0 then 0
    else if rows[0].kind == k then 0
    else 1 + RowOf(rows[1..], k)
  }

  /** The table after one more drink (the body of the `forEach`): its type's row is bumped,
      or a new row is appended the first time the type is seen. */
  function AddToKinds(rows: seq<KindStat>, d: Drink): (r: seq<KindStat>) {
    var i := RowOf(rows, d.kind);
    if i < |rows| then
      rows[i := KindStat(d.kind, rows[i].count + 1, rows[i].liters + Liters(d), rows[i].points + d.points)]
    else
      rows + [KindStat(d.kind, 1, Liters(d), d.points)]
  }

  /** The per-type table before sorting, rows in order of first occurrence. */
  function Tally(ds: seq<Drink>): (rows: seq<KindStat>) {
    if |ds| == 0 then [] else AddToKinds(Tally(ds[..|ds| - 1]), ds[|ds| - 1])
  }

  ghost predicate DistinctKinds(rows: seq<KindStat>) {
    forall i, j | 0 <= i < j < |rows| :: rows[i].kind != rows[j].kind
  }

  /** Every row holds the count, litres and points of the drinks of its type. */
  ghost predicate RowsMatch(rows: seq<KindStat>, ds: seq<Drink>) {
    forall i | 0 <= i < |rows| ::
      && rows[i].count == CountKind(ds, rows[i].kind)
      && rows[i].liters == KindSum(ds, rows[i].kind, Liters)
      && rows[i].points == KindSum(ds, rows[i].kind, PointsOfDrink)
  }

  /** Rows appear in the order their types first occur among the drinks. */
  ghost predicate FirstOccurrenceOrder(rows: seq<KindStat>, ds: seq<Drink>)
    requires KindsOf(rows) <= DrinkKinds(ds)
  {
    forall i, j | 0 <= i < j < |rows| ::
      assert rows[i].kind in KindsOf(rows) && rows[j].kind in KindsOf(rows);
      FirstIndex(ds, rows[i].kind) < FirstIndex(ds, rows[j].kind)
  }

  lemma DrinkKindsSnoc(ds: seq<Drink>, d: Drink)
    ensures DrinkKinds(ds + [d]) == DrinkKinds(ds) + {d.kind}
  {
    var e := ds + [d];
    forall k | k in DrinkKinds(e) ensures k in DrinkKinds(ds) + {d.kind} {
      var i :| 0 <= i < |e| && e[i].kind == k;
      if i < |ds| {
        assert ds[i] == e[i];
      }
    }
    forall k | k in DrinkKinds(ds) ensures k in DrinkKinds(e) {
      var i :| 0 <= i < |ds| && ds[i].kind == k;
      assert e[i] == ds[i];
    }
    assert e[|ds|] == d;
  }

  /** The first occurrence of a type already present does not move when a drink is added. */
  lemma FirstIndexSnoc(ds: seq<Drink>, d: Drink, k: string)
    requires k in DrinkKinds(ds)
    ensures DrinkKinds(ds + [d]) == DrinkKinds(ds) + {d.kind}
    ensures FirstIndex(ds + [d], k) == FirstIndex(ds, k)
  {
    DrinkKindsSnoc(ds, d);
    assert (ds + [d])[..|ds|] == ds;
  }

  /** A type seen for the first time has its first occurrence at the new drink. */
  lemma FirstIndexNew(ds: seq<Drink>, d: Drink)
    requires d.kind !in DrinkKinds(ds)
    ensures d.kind in DrinkKinds(ds + [d])
    ensures FirstIndex(ds + [d], d.kind) == |ds|
  {
    DrinkKindsSnoc(ds, d);
    assert (ds + [d])[..|ds|] == ds;
  }

  lemma KindsOfUpdate(rows: seq<KindStat>, i: int, row: KindStat)
    requires 0 <= i < |rows| && row.kind == rows[i].kind
    ensures KindsOf(rows[i := row]) == KindsOf(rows)
  {
    var r := rows[i := row];
    forall k | k in KindsOf(rows) ensures k in KindsOf(r) {
      var j :| 0 <= j < |rows| && rows[j].kind == k;
      assert r[j].kind == k;
    }
  }

  lemma KindsOfSnoc(rows: seq<KindStat>, row: KindStat)
    ensures KindsOf(rows + [row]) == KindsOf(rows) + {row.kind}
  {
    var r := rows + [row];
    forall k | k in KindsOf(r) ensures k in KindsOf(rows) + {row.kind} {
      var j :| 0 <= j < |r| && r[j].kind == k;
      if j < |rows| {
        assert rows[j] == r[j];
      }
    }
    forall k | k in KindsOf(rows) ensures k in KindsOf(r) {
      var j :| 0 <= j < |rows| && rows[j].kind == k;
      assert r[j] == rows[j];
    }
    assert r[|rows|] == row;
  }

  /** One step of the tally keeps the table exact for the longer drink list. */
  lemma AddToKindsMatches(rows: seq<KindStat>, ds: seq<Drink>, d: Drink)
    requires DistinctKinds(rows) && KindsOf(rows) == DrinkKinds(ds) && RowsMatch(rows, ds)
    ensures var r := AddToKinds(rows, d);
            DistinctKinds(r) && KindsOf(r) == DrinkKinds(ds + [d]) && RowsMatch(r, ds + [d])
  {
    var e := ds + [d];
    assert e[..|e| - 1] == ds && e[|e| - 1] == d;
    DrinkKindsSnoc(ds, d);
    var i := RowOf(rows, d.kind);
    var r := AddToKinds(rows, d);
    if i < |rows| {
      KindsOfUpdate(rows, i, r[i]);
    } else {
      KindsOfSnoc(rows, r[|rows|]);
      assert d.kind !in DrinkKinds(ds);
      assert CountKind(ds, d.kind) == 0 && KindSum(ds, d.kind, Liters) == 0.0
             && KindSum(ds, d.kind, PointsOfDrink) == 0.0 by {
        KindAbsent(ds, d.kind);
      }
    }
  }

  /** A type that does not occur has count and sums 0. */
  lemma {:induction false} KindAbsent(ds: seq<Drink>, k: string)
    requires k !in DrinkKinds(ds)
    ensures CountKind(ds, k) == 0 && KindSum(ds, k, Liters) == 0.0 && KindSum(ds, k, PointsOfDrink) == 0.0
  {
    if |ds| > 0 {
      var n := |ds| - 1;
      assert ds[n].kind in DrinkKinds(ds);
      assert DrinkKinds(ds[..n]) <= DrinkKinds(ds) by {
        forall k' | k' in DrinkKinds(ds[..n]) ensures k' in DrinkKinds(ds) {
          var j :| 0 <= j < n && ds[..n][j].kind == k';
          assert ds[j] == ds[..n][j];
        }
      }
      KindAbsent(ds[..n], k);
    }
  }

  /** The tally has one row per drink type, holding that type's count, litres and points. */
  lemma {:induction false} TallyMatches(ds: seq<Drink>)
    ensures DistinctKinds(Tally(ds))
    ensures KindsOf(Tally(ds)) == DrinkKinds(ds)
    ensures RowsMatch(Tally(ds), ds)
  {
    if |ds| > 0 {
      var n := |ds| - 1;
      assert ds == ds[..n] + [ds[n]];
      TallyMatches(ds[..n]);
      AddToKindsMatches(Tally(ds[..n]), ds[..n], ds[n]);
    }
  }

  /** Types already tabled keep their first occurrence when a drink is added. */
  lemma {:induction false} FirstIndicesKept(rows: seq<KindStat>, init: seq<Drink>, d: Drink)
    requires KindsOf(rows) == DrinkKinds(init)
    ensures forall a | 0 <= a < |rows| :: rows[a].kind in DrinkKinds(init) && rows[a].kind in DrinkKinds(init + [d])
              && FirstIndex(init + [d], rows[a].kind) == FirstIndex(init, rows[a].kind)
  {
    forall a | 0 <= a < |rows| ensures rows[a].kind in DrinkKinds(init) && rows[a].kind in DrinkKinds(init + [d])
      && FirstIndex(init + [d], rows[a].kind) == FirstIndex(init, rows[a].kind) {
      assert rows[a].kind in KindsOf(rows);
      FirstIndexSnoc(init, d, rows[a].kind);
    }
  }

  /** Bumping an existing row keeps the table in order of first occurrence. */
  lemma {:induction false} FirstOccurrenceBump(rows: seq<KindStat>, init: seq<Drink>, d: Drink)
    requires KindsOf(rows) == DrinkKinds(init) && FirstOccurrenceOrder(rows, init)
    requires RowOf(rows, d.kind) < |rows|
    ensures KindsOf(AddToKinds(rows, d)) == DrinkKinds(init + [d])
    ensures FirstOccurrenceOrder(AddToKinds(rows, d), init + [d])
  {
    var r := AddToKinds(rows, d);
    var i := RowOf(rows, d.kind);
    KindsOfUpdate(rows, i, r[i]);
    DrinkKindsSnoc(init, d);
    FirstIndicesKept(rows, init, d);
    forall a, b | 0 <= a < b < |r|
      ensures FirstIndex(init + [d], r[a].kind) < FirstIndex(init + [d], r[b].kind) {
      assert r[a].kind == rows[a].kind && r[b].kind == rows[b].kind;
    }
  }

  /** Appending the row of a new type keeps the table in order of first occurrence. */
  lemma {:induction false} FirstOccurrenceAppend(rows: seq<KindStat>, init: seq<Drink>, d: Drink)
    requires KindsOf(rows) == DrinkKinds(init) && FirstOccurrenceOrder(rows, init)
    requires RowOf(rows, d.kind) == |rows|
    ensures KindsOf(AddToKinds(rows, d)) == DrinkKinds(init + [d])
    ensures FirstOccurrenceOrder(AddToKinds(rows, d), init + [d])
  {
    var r := AddToKinds(rows, d);
    KindsOfSnoc(rows, r[|rows|]);
    DrinkKindsSnoc(init, d);
    assert d.kind !in KindsOf(rows);
    FirstIndexNew(init, d);
    FirstIndicesKept(rows, init, d);
    forall a, b | 0 <= a < b < |r|
      ensures FirstIndex(init + [d], r[a].kind) < FirstIndex(init + [d], r[b].kind) {
      assert r[a] == rows[a];
      if b < |rows| {
        assert r[b] == rows[b];
      }
    }
  }

  /** The tally lists the types in order of first occurrence. */
  lemma {:induction false} TallyFirstOccurrence(ds: seq<Drink>)
    ensures KindsOf(Tally(ds)) == DrinkKinds(ds)
    ensures FirstOccurrenceOrder(Tally(ds), ds)
  {
    if |ds| > 0 {
      var n := |ds| - 1;
      var init, d := ds[..n], ds[n];
      assert ds == init + [d];
      TallyFirstOccurrence(init);
      if RowOf(Tally(init), d.kind) < |Tally(init)| {
        FirstOccurrenceBump(Tally(init), init, d);
      } else {
        FirstOccurrenceAppend(Tally(init), init, d);
      }
    }
  }

  /** Counts, litres and points of the tally add up to those of all drinks. */
  lemma {:induction false} TallySums(ds: seq<Drink>)
    ensures Sum(Tally(ds), CountOf) == |ds| as real
    ensures Sum(Tally(ds), LitersOf) == Sum(ds, Liters)
    ensures Sum(Tally(ds), PointsOfRow) == Sum(ds, PointsOfDrink)
  {
    if |ds| > 0 {
      var n := |ds| - 1;
      var init, d := ds[..n], ds[n];
      assert ds == init + [d];
      TallySums(init);
      SumAppend(init, [d], Liters);
      SumAppend(init, [d], PointsOfDrink);
      var rows := Tally(init);
      var i := RowOf(rows, d.kind);
      if i < |rows| {
        var row := KindStat(d.kind, rows[i].count + 1, rows[i].liters + Liters(d), rows[i].points + d.points);
        SumUpdate(rows, i, row, CountOf);
        SumUpdate(rows, i, row, LitersOf);
        SumUpdate(rows, i, row, PointsOfRow);
      } else {
        var row := KindStat(d.kind, 1, Liters(d), d.points);
        SumAppend(rows, [row], CountOf);
        SumAppend(rows, [row], LitersOf);
        SumAppend(rows, [row], PointsOfRow);
      }
    }
  }

  /** `(a, b) => b.count - a.count` */
  function ByCountDesc(): (KindStat, KindStat) -> real {
    KeyComparator(CountOf, Desc)
  }

  /** The per-type table: the tally sorted by count, most frequent type first. */
  function KindStats(ds: seq<Drink>): (rows: seq<KindStat>) {
    Sort(Tally(ds), ByCountDesc())
  }

  /** Sorting a table permutes its rows: it keeps their number and the types they list. */
  lemma PermutedRows(rows: seq<KindStat>, r: seq<KindStat>)
    requires multiset(r) == multiset(rows)
    ensures |r| == |rows| && KindsOf(r) == KindsOf(rows)
    ensures forall i | 0 <= i < |r| :: r[i] in rows
  {
    assert |r| == |multiset(r)| == |multiset(rows)| == |rows|;
    forall k | k in KindsOf(r) ensures k in KindsOf(rows) {
      var j :| 0 <= j < |r| && r[j].kind == k;
      assert r[j] in multiset(rows);
      var m :| 0 <= m < |rows| && rows[m] == r[j];
    }
    forall k | k in KindsOf(rows) ensures k in KindsOf(r) {
      var j :| 0 <= j < |rows| && rows[j].kind == k;
      assert rows[j] in multiset(r);
      var m :| 0 <= m < |r| && r[m] == rows[j];
    }
    forall i | 0 <= i < |r| ensures r[i] in rows {
      assert r[i] in multiset(rows);
    }
  }

  /** One row per drink type present, each holding that type's count, litres and points. */
  lemma KindStatsRows(ds: seq<Drink>)
    ensures |KindStats(ds)| == |DrinkKinds(ds)|
    ensures KindsOf(KindStats(ds)) == DrinkKinds(ds)
    ensures RowsMatch(KindStats(ds), ds)
  {
    var rows := Tally(ds);
    var r := KindStats(ds);
    TallyMatches(ds);
    DistinctRowsCount(rows);
    PermutedRows(rows, r);
    forall i | 0 <= i < |r|
      ensures && r[i].count == CountKind(ds, r[i].kind)
              && r[i].liters == KindSum(ds, r[i].kind, Liters)
              && r[i].points == KindSum(ds, r[i].kind, PointsOfDrink) {
      var m :| 0 <= m < |rows| && rows[m] == r[i];
    }
  }

  /** Counts, litres and points of the per-type table add up to those of all drinks. */
  lemma KindStatsSums(ds: seq<Drink>)
    ensures Sum(KindStats(ds), CountOf) == |ds| as real
    ensures Sum(KindStats(ds), LitersOf) == Sum(ds, Liters)
    ensures Sum(KindStats(ds), PointsOfRow) == Sum(ds, PointsOfDrink)
  {
    var rows := Tally(ds);
    TallySums(ds);
    SumPermutation(KindStats(ds), rows, CountOf);
    SumPermutation(KindStats(ds), rows, LitersOf);
    SumPermutation(KindStats(ds), rows, PointsOfRow);
  }

  /** Rows by non-increasing count; rows with equal counts keep the tally's order, which is the
      order in which their types first occur (`TallyFirstOccurrence`). */
  lemma KindStatsOrder(ds: seq<Drink>)
    ensures Ordered(KindStats(ds), CountOf, Desc)
    ensures forall v :: Ties(KindStats(ds), CountOf, v) == Ties(Tally(ds), CountOf, v)
  {
    KeyComparatorRealises(CountOf, Desc, Tally(ds));
    SortCorrect(Tally(ds), ByCountDesc(), CountOf, Desc);
  }

  /** A table with distinct types lists as many types as it has rows. */
  lemma {:induction false} DistinctRowsCount(rows: seq<KindStat>)
    requires DistinctKinds(rows)
    ensures |KindsOf(rows)| == |rows|
  {
    if |rows| > 0 {
      var n := |rows| - 1;
      assert rows == rows[..n] + [rows[n]];
      DistinctRowsCount(rows[..n]);
      KindsOfSnoc(rows[..n], rows[n]);
      assert rows[n].kind !in KindsOf(rows[..n]);
    }
  }

  // ---------------------------------------------------------------- per time of day

  datatype Period = Morning | Afternoon | Evening | Night

  /** Hours `[6, 12)` are morning, `[12, 18)` afternoon, `[18, 24)` evening; every other
      value, from 0 to 5 or outside the day altogether, is night. */
  function PeriodOf(hour: int): Period {
    if hour >= 6 && hour < 12 then Morning
    else if hour >= 12 && hour < 18 then Afternoon
    else if hour >= 18 && hour < 24 then Evening
    else Night
  }

  /** The table's fixed row order. */
  const PeriodOrder: seq<Period> := [Morning, Afternoon, Evening, Night]

  /** Row of a period in the table. */
  function Slot(p: Period): (i: nat)
    ensures i < 4 && PeriodOrder[i] == p
  {
    match p
    case Morning => 0
    case Afternoon => 1
    case Evening => 2
    case Night => 3
  }

  /** Within a day the periods are the four six-hour quarters counted from 06:00. */
  lemma PeriodIsQuarterFromSix(hour: int)
    requires 0 <= hour < 24
    ensures Slot(PeriodOf(hour)) == ((hour - 6) % 24) / 6
  {
  }

  /** Every hour outside the day is night. */
  lemma PeriodOutsideDay(hour: int)
    ensures PeriodOf(hour) == Night <==> hour < 6 || hour >= 24
  {
  }

  /** The row heading of each period. */
  function Label(p: Period): string {
    match p
    case Morning => "Manhã (6-12h)"
    case Afternoon => "Tarde (12-18h)"
    case Evening => "Noite (18-24h)"
    case Night => "Madrugada (0-6h)"
  }

  datatype PeriodStat = PeriodStat(period: Period, count: nat, liters: real, points: real)

  function PeriodCountOf(row: PeriodStat): real { row.count as real }
  function PeriodLitersOf(row: PeriodStat): real { row.liters }
  function PeriodPointsOf(row: PeriodStat): real { row.points }

  /** The period a drink falls in, given the local-hour conversion. */
  function PeriodOfDrink(d: Drink, localHour: int -> int): Period {
    PeriodOf(localHour(d.date))
  }

  /** Number of drinks in period `p`. */
  function PeriodCount(ds: seq<Drink>, p: Period, localHour: int -> int): nat {
    if |ds| == 0 then 0
    else PeriodCount(ds[..|ds| - 1], p, localHour)
         + (if PeriodOfDrink(ds[|ds| - 1], localHour) == p then 1 else 0)
  }

  /** Sum of `f` over the drinks in period `p`. */
  function PeriodSum(ds: seq<Drink>, p: Period, localHour: int -> int, f: Drink -> real): real {
    if |ds| == 0 then 0.0
    else PeriodSum(ds[..|ds| - 1], p, localHour, f)
         + (if PeriodOfDrink(ds[|ds| - 1], localHour) == p then f(ds[|ds| - 1]) else 0.0)
  }

  /** The four rows before any drink is counted. */
  function EmptyPeriods(): (r: seq<PeriodStat>)
    ensures |r| == 4 && forall i :: 0 <= i < 4 ==> r[i].period == PeriodOrder[i]
  {
    [PeriodStat(Morning, 0, 0.0, 0.0), PeriodStat(Afternoon, 0, 0.0, 0.0),
     PeriodStat(Evening, 0, 0.0, 0.0), PeriodStat(Night, 0, 0.0, 0.0)]
  }

  /** One more drink: the row of its period is bumped. */
  function AddToPeriods(rows: seq<PeriodStat>, d: Drink, localHour: int -> int): (r: seq<PeriodStat>)
    requires |rows| == 4
    ensures |r| == 4 && forall i :: 0 <= i < 4 ==> r[i].period == rows[i].period
  {
    var i := Slot(PeriodOfDrink(d, localHour));
    rows[i := rows[i].(count := rows[i].count + 1, liters := rows[i].liters + Liters(d),
                       points := rows[i].points + d.points)]
  }

  /** The time-of-day table: always four rows, morning, afternoon, evening and night. */
  function TimeStats(ds: seq<Drink>, localHour: int -> int): (r: seq<PeriodStat>)
    ensures |r| == 4
    ensures forall i :: 0 <= i < 4 ==> r[i].period == PeriodOrder[i]
  {
    if |ds| == 0 then EmptyPeriods()
    else AddToPeriods(TimeStats(ds[..|ds| - 1], localHour), ds[|ds| - 1], localHour)
  }

  /** The rows carry the headings the table shows, in that order. */
  lemma TimeStatsHeadings(ds: seq<Drink>, localHour: int -> int)
    ensures var r := TimeStats(ds, localHour);
            Label(r[0].period) == "Manhã (6-12h)" && Label(r[1].period) == "Tarde (12-18h)"
            && Label(r[2].period) == "Noite (18-24h)" && Label(r[3].period) == "Madrugada (0-6h)"
  {
  }

  /** Every row holds the count, litres and points of the drinks of its period. */
  lemma {:induction false} TimeStatsMatch(ds: seq<Drink>, localHour: int -> int)
    ensures forall i | 0 <= i < 4 ::
              && TimeStats(ds, localHour)[i].count == PeriodCount(ds, PeriodOrder[i], localHour)
              && TimeStats(ds, localHour)[i].liters == PeriodSum(ds, PeriodOrder[i], localHour, Liters)
              && TimeStats(ds, localHour)[i].points == PeriodSum(ds, PeriodOrder[i], localHour, PointsOfDrink)
  {
    if |ds| > 0 {
      TimeStatsMatch(ds[..|ds| - 1], localHour);
    }
  }

  /** The rows' counts add up to the number of drinks, their litres and points to those of all
      drinks. */
  lemma {:induction false} TimeStatsSums(ds: seq<Drink>, localHour: int -> int)
    ensures Sum(TimeStats(ds, localHour), PeriodCountOf) == |ds| as real
    ensures Sum(TimeStats(ds, localHour), PeriodLitersOf) == Sum(ds, Liters)
    ensures Sum(TimeStats(ds, localHour), PeriodPointsOf) == Sum(ds, PointsOfDrink)
  {
    if |ds| == 0 {
    } else {
      var n := |ds| - 1;
      var init, d := ds[..n], ds[n];
      assert ds == init + [d];
      TimeStatsSums(init, localHour);
      SumAppend(init, [d], Liters);
      SumAppend(init, [d], PointsOfDrink);
      var rows := TimeStats(init, localHour);
      var i := Slot(PeriodOfDrink(d, localHour));
      var row := rows[i].(count := rows[i].count + 1, liters := rows[i].liters + Liters(d),
                          points := rows[i].points + d.points);
      SumUpdate(rows, i, row, PeriodCountOf);
      SumUpdate(rows, i, row, PeriodLitersOf);
      SumUpdate(rows, i, row, PeriodPointsOf);
    }
  }

  // ---------------------------------------------------------------- the component's state

  /** What the dashboard shows. */
  datatype View = View(totals: Totals, ranking: seq<Member>, kindStats: seq<KindStat>, timeStats: seq<PeriodStat>)

  /** Before anything is loaded: zero totals and empty tables. */
  function InitialView(): (v: View)
    ensures v.totals == Totals(0.0, 0.0, 0.0, 0.0)
    ensures v.ranking == [] && v.kindStats == [] && v.timeStats == []
  {
    View(Totals(0.0, 0.0, 0.0, 0.0), [], [], [])
  }

  /** The effect run when the current group changes: with a group, its totals are shown and,
      if it has members, the ranking is recomputed; the drink tables are never touched. */
  function OnGroupChange(v: View, currentGroup: Option<Group>): (r: View)
    ensures currentGroup.None? ==> r == v
    ensures r.kindStats == v.kindStats && r.timeStats == v.timeStats
    ensures currentGroup.Some? ==> r.totals == GroupTotals(currentGroup.value)
    ensures currentGroup.Some? && |currentGroup.value.members| == 0 ==> r.ranking == v.ranking
    ensures currentGroup.Some? && |currentGroup.value.members| > 0 ==>
              r.ranking == Ranking(currentGroup.value.members)
  {
    match currentGroup
    case None => v
    case Some(g) =>
      var ranking := if |g.members| > 0 then Ranking(g.members) else v.ranking;
      v.(totals := GroupTotals(g), ranking := ranking)
  }

  /** The effect run when the group's drinks change: both tables are recomputed from a
      non-empty list; an empty list leaves the previous tables on screen. */
  function OnDrinksChange(v: View, groupDrinks: seq<Drink>, localHour: int -> int): (r: View)
    ensures |groupDrinks| == 0 ==> r == v
    ensures r.totals == v.totals && r.ranking == v.ranking
    ensures |groupDrinks| > 0 ==> r.kindStats == KindStats(groupDrinks)
    ensures |groupDrinks| > 0 ==> |r.timeStats| == 4 && r.timeStats == TimeStats(groupDrinks, localHour)
  {
    if |groupDrinks| > 0 then
      v.(kindStats := KindStats(groupDrinks), timeStats := TimeStats(groupDrinks, localHour))
    else v
  }
}

=== FILE: domain.dfy ===
/**
 * The records the frontend receives from the REST backend, as the components read them.
 * Instants (`date`, `startDate`, `endDate`) are milliseconds since the epoch; volumes are
 * integer millilitres; points, litres and running totals are reals because the backend
 * sends fractional values (a cocktail scores 2.5 points per 100 ml).
 */
module Domain {
  import opened Wrappers

  /** A user; the four running totals and the `points` field may be missing from the payload. */
  datatype User = User(
    id: string,
    name: string,
    points: Option<real>,
    totalDrinks: Option<real>,
    totalLiters: Option<real>,
    totalPoints: Option<real>,
    totalPartyHours: Option<real>)

  /** A group membership: the user and their role in the group (`admin` or `member`). */
  datatype Member = Member(user: User, role: string)

  /** A group with its members and its (possibly missing) running totals. */
  datatype Group = Group(
    id: string,
    name: string,
    members: seq<Member>,
    totalDrinks: Option<real>,
    totalLiters: Option<real>,
    totalPoints: Option<real>,
    totalPartyHours: Option<real>)

  /** The group built by spreading `null` and then setting its members: every other field is
      absent, which the model writes as the empty string or `None`. */
  function GroupWithMembersOnly(members: seq<Member>): (g: Group)
    ensures g.members == members && g.totalPoints.None?
  {
    Group("", "", members, None, None, None, None)
  }

  datatype Comment = Comment(author: string, text: string, date: int)

  /** A logged drink; `kind` is the JSON field `type` (one of the form's drink types). */
  datatype Drink = Drink(
    id: string,
    name: string,
    kind: string,
    brand: string,
    amount: int,
    points: real,
    date: int,
    comments: seq<Comment>)

  /** An attendance record: the user and their answer, `sim`, `talvez` or `não`. */
  datatype Attendee = Attendee(userId: string, userName: string, status: string)

  datatype Event = Event(
    id: string,
    name: string,
    location: string,
    startDate: int,
    endDate: int,
    attendees: seq<Attendee>,
    comments: seq<Comment>)

  /** The event built by spreading `null`: every field the action does not set is absent. */
  function BlankEvent(): (e: Event)
    ensures e.attendees == [] && e.comments == []
  {
    Event("", "", "", 0, 0, [], [])
  }

  /** `x || 0` on a number that may be missing. */
  function OrZero(x: Option<real>): (r: real)
    ensures x.None? ==> r == 0.0
    ensures x.Some? ==> r == x.value
  {
    x.GetOr(0.0)
  }
}

=== FILE: drink_form.dfy ===
/**
 * The drink logging form: the default and selectable drink types, the required fields, and the
 * payload sent to the store with the amount read as an integer.
 */
module DrinkForm {
  import opened Wrappers
  import opened Submission
  import Text

  datatype FormData = FormData(
    name: string,
    kind: string,
    brand: string,
    amount: string,
    location: string,
    photo: string,
    groupId: string)

  /** The options of the type selector, in the order shown. */
  const DrinkTypes: seq<string> := ["Cerveja", "Vinho", "Destilado", "Coquetel", "Shot", "Outro"]

  /** A fresh form for the group: the first drink type selected, every other field empty. */
  function InitialForm(groupId: string): (f: FormData)
    ensures f.kind == "Cerveja" && f.kind == DrinkTypes[0]
    ensures f.name == "" && f.brand == "" && f.amount == "" && f.photo == "" && f.location == ""
            && f.groupId == groupId
  {
    FormData("", "Cerveja", "", "", "", "", groupId)
  }

  /** What is sent to the store: the form's fields, the amount as `parseInt` reads it (`None` for
      NaN), and the event the drink belongs to, if any. */
  datatype Payload = Payload(
    name: string,
    kind: string,
    brand: string,
    amount: Option<int>,
    location: string,
    photo: string,
    groupId: string,
    eventId: Option<string>)

  datatype Submit = Rejected(message: string) | Send(payload: Payload)

  const AllRequired := "Todos os campos são obrigatórios"
  const PhotoRequired := "A foto da bebida é obrigatória"
  const AddFailed := "Erro ao registrar bebida"

  predicate RequiredFilled(f: FormData) {
    f.name != "" && f.brand != "" && f.amount != "" && f.photo != ""
  }

  /** Submitting the form. The second check, for a missing photo, comes after a first check that
      already covers it, so its message is never shown. The amount is only required to be
      non-empty: its sign is not checked. */
  function OnSubmit(f: FormData, eventId: Option<string>): (r: Submit)
    ensures r.Send? <==> RequiredFilled(f)
    ensures r.Rejected? ==> r.message == AllRequired
    ensures r != Rejected(PhotoRequired)
    ensures r.Send? ==> r.payload.amount == Text.ParseInt(f.amount) && r.payload.eventId == eventId
    ensures r.Send? ==> r.payload.name == f.name && r.payload.kind == f.kind && r.payload.brand == f.brand
                        && r.payload.location == f.location && r.payload.photo == f.photo
                        && r.payload.groupId == f.groupId
  {
    if f.name == "" || f.brand == "" || f.amount == "" || f.photo == "" then Rejected(AllRequired)
    else if f.photo == "" then Rejected(PhotoRequired)
    else Send(Payload(f.name, f.kind, f.brand, Text.ParseInt(f.amount), f.location, f.photo, f.groupId, eventId))
  }

  /** An amount typed as a numeral reaches the store as that integer. */
  lemma TypedAmountSent(f: FormData, eventId: Option<string>, n: int)
    requires RequiredFilled(f) && f.amount == Text.IntString(n)
    ensures OnSubmit(f, eventId).payload.amount == Some(n)
  {
    assert Text.IntString(n) + "" == Text.IntString(n);
    Text.ParseIntReadsNumeral(n, "");
  }

  /** The handler accepts an amount of zero or less: only the input's `min` attribute keeps it
      positive. */
  lemma NonPositiveAmountSent(groupId: string, eventId: Option<string>)
    ensures OnSubmit(FormData("Heineken", "Cerveja", "Heineken", "0", "", "foto.jpg", groupId), eventId).payload.amount
            == Some(0)
    ensures OnSubmit(FormData("Heineken", "Cerveja", "Heineken", "-350", "", "foto.jpg", groupId), eventId).payload.amount
            == Some(-350)
  {
    TypedAmountSent(FormData("Heineken", "Cerveja", "Heineken", "0", "", "foto.jpg", groupId), eventId, 0);
    assert Text.IntString(-350) == "-350";
    TypedAmountSent(FormData("Heineken", "Cerveja", "Heineken", "-350", "", "foto.jpg", groupId), eventId, -350);
  }

  /** After `addDrink` returns. */
  function AfterAdd(groupId: string, result: CallResult): (r: Outcome)
    ensures r == Navigate("/groups/" + groupId) <==> result == Truthy
    ensures r == ShowError(AddFailed) <==> result != Truthy
  {
    AfterCall(groupId, result, AddFailed)
  }
}

=== FILE: drink_list.dfy ===
/**
 * The drink list: the group's or the event's drinks, sorted by date, points or amount in the
 * chosen direction, and the header clicks that choose the key.
 */
module DrinkList {
  import opened Wrappers
  import opened Sorting
  import opened Domain

  /** The state the list starts in: newest first. */
  function InitialSort(): SortState<string> {
    SortState("date", Desc)
  }

  /** An `eventId` prop is truthy when present and non-empty. */
  predicate Truthy(id: Option<string>) {
    id.Some? && id.value != ""
  }

  /** The list shown: the event's drinks when an event is given, the group's otherwise. */
  function SelectList(eventId: Option<string>, groupDrinks: seq<Drink>, eventDrinks: seq<Drink>): (r: seq<Drink>)
    ensures Truthy(eventId) ==> r == eventDrinks
    ensures !Truthy(eventId) ==> r == groupDrinks
  {
    if Truthy(eventId) then eventDrinks else groupDrinks
  }

  /** The keys the list can be sorted by. */
  predicate IsKey(field: string) {
    field == "date" || field == "points" || field == "amount"
  }

  /** The value of a drink a known key reads. */
  function Key(field: string): Drink -> real {
    (d: Drink) =>
      if field == "date" then d.date as real
      else if field == "points" then d.points
      else if field == "amount" then d.amount as real
      else 0.0
  }

  /** The list's comparator: the difference of the chosen key, later-minus-earlier for `desc`;
      0 for any other key. */
  function Comparator(s: SortState<string>): (Drink, Drink) -> real {
    (a: Drink, b: Drink) =>
      if s.sortBy == "date" then
        (if s.order == Desc then (b.date - a.date) as real else (a.date - b.date) as real)
      else if s.sortBy == "points" then
        (if s.order == Desc then b.points - a.points else a.points - b.points)
      else if s.sortBy == "amount" then
        (if s.order == Desc then (b.amount - a.amount) as real else (a.amount - b.amount) as real)
      else 0.0
  }

  /** The drinks shown for the props, the two lists and the sort state. */
  function SortedDrinks(eventId: Option<string>, groupDrinks: seq<Drink>, eventDrinks: seq<Drink>,
                        s: SortState<string>): (r: seq<Drink>)
    ensures multiset(r) == multiset(SelectList(eventId, groupDrinks, eventDrinks))
    ensures |r| == |SelectList(eventId, groupDrinks, eventDrinks)|
  {
    Sort(SelectList(eventId, groupDrinks, eventDrinks), Comparator(s))
  }

  /** For a known key the comparator is the key's difference in the chosen direction. */
  lemma ComparatorRealises(s: SortState<string>, u: seq<Drink>)
    requires IsKey(s.sortBy)
    ensures Realises(Comparator(s), Key(s.sortBy), s.order, u)
  {
    forall a, b | a in u && b in u
      ensures Comparator(s)(a, b) == KeyDiff(Key(s.sortBy), s.order, a, b)
    {
      if s.sortBy == "date" {
        assert Key(s.sortBy)(a) == a.date as real && Key(s.sortBy)(b) == b.date as real;
      } else if s.sortBy == "points" {
        assert Key(s.sortBy)(a) == a.points && Key(s.sortBy)(b) == b.points;
      } else {
        assert Key(s.sortBy)(a) == a.amount as real && Key(s.sortBy)(b) == b.amount as real;
      }
    }
  }

  /** Sorting by a known key: ordered by it in the chosen direction, and drinks with equal keys
      keep the list's order. */
  lemma SortedByKey(eventId: Option<string>, groupDrinks: seq<Drink>, eventDrinks: seq<Drink>,
                    s: SortState<string>)
    requires IsKey(s.sortBy)
    ensures Ordered(SortedDrinks(eventId, groupDrinks, eventDrinks, s), Key(s.sortBy), s.order)
    ensures forall v :: Ties(SortedDrinks(eventId, groupDrinks, eventDrinks, s), Key(s.sortBy), v)
                        == Ties(SelectList(eventId, groupDrinks, eventDrinks), Key(s.sortBy), v)
  {
    var u := SelectList(eventId, groupDrinks, eventDrinks);
    ComparatorRealises(s, u);
    SortCorrect(u, Comparator(s), Key(s.sortBy), s.order);
  }

  /** Any other key leaves the list in its original order. */
  lemma UnknownKeyKeepsOrder(eventId: Option<string>, groupDrinks: seq<Drink>, eventDrinks: seq<Drink>,
                             s: SortState<string>)
    requires !IsKey(s.sortBy)
    ensures SortedDrinks(eventId, groupDrinks, eventDrinks, s) == SelectList(eventId, groupDrinks, eventDrinks)
  {
    var u := SelectList(eventId, groupDrinks, eventDrinks);
    SortKeepsOrder(u, Comparator(s));
  }

  /** From the initial state, clicking `date` shows the oldest drinks first and any other key
      shows the highest first. */
  lemma FirstClick(field: string)
    ensures field == "date" ==> Toggle(InitialSort(), field) == SortState("date", Asc)
    ensures field != "date" ==> Toggle(InitialSort(), field) == SortState(field, Desc)
  {
  }
}

=== FILE: drink_store.dfy ===
/**
 * The drink store: the user's drinks, the group's drinks and the event's drinks, with the
 * loading and error flags, changed only through the reducer.
 */
module DrinkStore {
  import opened Wrappers
  import opened Seqs
  import opened Domain

  datatype State = State(drinks: seq<Drink>, groupDrinks: seq<Drink>, eventDrinks: seq<Drink>,
                         loading: bool, error: Option<string>)

  /** Three empty lists, loading, no error. */
  function InitialState(): (s: State)
    ensures s.drinks == [] && s.groupDrinks == [] && s.eventDrinks == [] && s.loading && s.error.None?
  {
    State([], [], [], true, None)
  }

  datatype Action =
    | GetUserDrinks(drinks: seq<Drink>)
    | GetGroupDrinks(drinks: seq<Drink>)
    | GetEventDrinks(drinks: seq<Drink>)
    | AddDrink(drink: Drink)
    | AddComment(drinkId: string, comments: seq<Comment>)
    | DrinkError(message: string)
    | ClearError
    | SetLoading
    | Unknown(kind: string)

  /** The list with the comments of the drink `drinkId` replaced; nothing else changes. */
  function WithComments(ds: seq<Drink>, drinkId: string, comments: seq<Comment>): (r: seq<Drink>)
    ensures |r| == |ds|
    ensures forall i :: 0 <= i < |ds| ==> r[i].(comments := ds[i].comments) == ds[i]
    ensures forall i :: 0 <= i < |ds| && ds[i].id == drinkId ==> r[i].comments == comments
    ensures forall i :: 0 <= i < |ds| && ds[i].id != drinkId ==> r[i] == ds[i]
  {
    MapWhere(ds, (d: Drink) => d.id == drinkId, (d: Drink) => d.(comments := comments))
  }

  /** The reducer. */
  function Reduce(s: State, a: Action): (r: State)
    ensures a.GetUserDrinks? ==> r == s.(drinks := a.drinks, loading := false)
    ensures a.GetGroupDrinks? ==> r == s.(groupDrinks := a.drinks, loading := false)
    ensures a.GetEventDrinks? ==> r == s.(eventDrinks := a.drinks, loading := false)
    ensures a.AddDrink? ==> |r.drinks| == |s.drinks| + 1 && r.drinks[0] == a.drink && r.drinks[1..] == s.drinks
    ensures a.AddDrink? ==> |r.groupDrinks| == |s.groupDrinks| + 1 && r.groupDrinks[0] == a.drink
                            && r.groupDrinks[1..] == s.groupDrinks
    ensures a.AddDrink? ==> r.eventDrinks == s.eventDrinks && r.error == s.error && !r.loading
    ensures a.AddComment? ==> r.drinks == WithComments(s.drinks, a.drinkId, a.comments)
                              && r.groupDrinks == WithComments(s.groupDrinks, a.drinkId, a.comments)
    ensures a.AddComment? ==> r.eventDrinks == s.eventDrinks && r.error == s.error && !r.loading
    ensures a.DrinkError? ==> r == s.(error := Some(a.message), loading := false)
    ensures a.ClearError? ==> r == s.(error := None)
    ensures a.SetLoading? ==> r == s.(loading := true)
    ensures a.Unknown? ==> r == s
  {
    match a
    case GetUserDrinks(drinks) => s.(drinks := drinks, loading := false)
    case GetGroupDrinks(drinks) => s.(groupDrinks := drinks, loading := false)
    case GetEventDrinks(drinks) => s.(eventDrinks := drinks, loading := false)
    case AddDrink(drink) => s.(drinks := [drink] + s.drinks, groupDrinks := [drink] + s.groupDrinks, loading := false)
    case AddComment(drinkId, comments) =>
      s.(drinks := WithComments(s.drinks, drinkId, comments),
         groupDrinks := WithComments(s.groupDrinks, drinkId, comments),
         loading := false)
    case DrinkError(message) => s.(error := Some(message), loading := false)
    case ClearError => s.(error := None)
    case SetLoading => s.(loading := true)
    case Unknown(_) => s
  }

  /** A new comment list reaches the same drinks the second time round: repeating the action
      changes nothing more. */
  lemma AddCommentIdempotent(s: State, drinkId: string, comments: seq<Comment>)
    ensures Reduce(Reduce(s, AddComment(drinkId, comments)), AddComment(drinkId, comments))
            == Reduce(s, AddComment(drinkId, comments))
  {
    MapWhereIdempotent(s.drinks, (d: Drink) => d.id == drinkId, (d: Drink) => d.(comments := comments));
    MapWhereIdempotent(s.groupDrinks, (d: Drink) => d.id == drinkId, (d: Drink) => d.(comments := comments));
  }

  /** Adding a drink is seen by every aggregate over the group's list: its points now count. */
  lemma AddDrinkAddsPoints(s: State, d: Drink)
    ensures Sum(Reduce(s, AddDrink(d)).groupDrinks, (x: Drink) => x.points)
            == d.points + Sum(s.groupDrinks, (x: Drink) => x.points)
  {
    assert Reduce(s, AddDrink(d)).groupDrinks == [d] + s.groupDrinks;
  }

  /** A comment leaves every drink's points where they were. */
  lemma AddCommentKeepsPoints(s: State, drinkId: string, comments: seq<Comment>)
    ensures Sum(Reduce(s, AddComment(drinkId, comments)).groupDrinks, (x: Drink) => x.points)
            == Sum(s.groupDrinks, (x: Drink) => x.points)
  {
    var f := (x: Drink) => x.points;
    var r := Reduce(s, AddComment(drinkId, comments)).groupDrinks;
    SumPointwise(r, s.groupDrinks, f);
  }
}

=== FILE: event_form.dfy ===
/**
 * The event creation form: the required fields, the time window, the payload sent to the store
 * and the check on a chosen cover image.
 */
module EventForm {
  import opened Wrappers
  import opened Submission
  import EventItem
  import EventList
  import Domain

  datatype FormData = FormData(
    name: string,
    description: string,
    location: string,
    startDate: string,
    startTime: string,
    endDate: string,
    endTime: string,
    eventImage: string,
    groupId: string)

  /** A fresh form for the group: every field empty. */
  function InitialForm(groupId: string): (f: FormData)
    ensures f.groupId == groupId && f.name == "" && f.location == "" && f.description == ""
    ensures f.startDate == "" && f.startTime == "" && f.endDate == "" && f.endTime == "" && f.eventImage == ""
  {
    FormData("", "", "", "", "", "", "", "", groupId)
  }

  /** What is sent to the store: the form's fields with the two instants in place of the date and
      time inputs; there is no `startTime` or `endTime` field. */
  datatype Payload = Payload(
    name: string,
    description: string,
    location: string,
    startDate: int,
    endDate: int,
    eventImage: string,
    groupId: string)

  datatype Submit = Rejected(message: string) | Send(payload: Payload)

  const MissingFields := "Preencha todos os campos obrigatórios"
  const EndNotAfterStart := "A data/hora de término deve ser posterior à data/hora de início"
  const CreateFailed := "Erro ao criar evento"

  /** The fields the form requires; description and image are optional. */
  predicate RequiredFilled(f: FormData) {
    f.name != "" && f.location != "" && f.startDate != "" && f.startTime != "" && f.endDate != "" && f.endTime != ""
  }

  /** Submitting the form. `start` and `end` are the instants the date and time inputs denote,
      `None` where they make an invalid date: such a date passes the window comparison and then
      fails to format, which the handler reports as a failed creation. */
  function OnSubmit(f: FormData, start: Option<int>, end: Option<int>): (r: Submit)
    ensures r == Rejected(MissingFields) <==> !RequiredFilled(f)
    ensures r == Rejected(EndNotAfterStart) <==>
              RequiredFilled(f) && start.Some? && end.Some? && end.value <= start.value
    ensures r == Rejected(CreateFailed) <==> RequiredFilled(f) && (start.None? || end.None?)
    ensures r.Send? <==> RequiredFilled(f) && start.Some? && end.Some? && start.value < end.value
    ensures r.Send? ==> r.payload.startDate == start.value && r.payload.endDate == end.value
    ensures r.Send? ==> r.payload.name == f.name && r.payload.description == f.description
                        && r.payload.location == f.location && r.payload.eventImage == f.eventImage
                        && r.payload.groupId == f.groupId
  {
    if !RequiredFilled(f) then Rejected(MissingFields)
    else if start.Some? && end.Some? && end.value <= start.value then Rejected(EndNotAfterStart)
    else if start.None? || end.None? then Rejected(CreateFailed)
    else Send(Payload(f.name, f.description, f.location, start.value, end.value, f.eventImage, f.groupId))
  }

  /** Neither the description nor the image decides whether the form is sent. */
  lemma OptionalFieldsIgnored(f: FormData, description: string, eventImage: string, start: Option<int>, end: Option<int>)
    ensures OnSubmit(f.(description := description, eventImage := eventImage), start, end).Send?
            == OnSubmit(f, start, end).Send?
  {
  }

  /** An event created from a sent form has a well-formed window, so its card's status and the
      list's filters agree at every instant. */
  lemma SentWindowWellFormed(f: FormData, start: Option<int>, end: Option<int>, e: Domain.Event, now: int)
    requires OnSubmit(f, start, end).Send?
    requires e.startDate == OnSubmit(f, start, end).payload.startDate
    requires e.endDate == OnSubmit(f, start, end).payload.endDate
    ensures e.startDate < e.endDate
    ensures EventItem.DurationHours(e) > 0.0
    ensures EventList.Keeps("upcoming", now)(e) <==> EventItem.StatusOf(now, e) == EventItem.Future
    ensures EventList.Keeps("current", now)(e) <==> EventItem.StatusOf(now, e) == EventItem.Current
    ensures EventList.Keeps("past", now)(e) <==> EventItem.StatusOf(now, e) == EventItem.Past
  {
    EventList.FiltersMatchStatus(e, now);
  }

  /** After `createEvent` returns. */
  function AfterCreate(groupId: string, result: CallResult): (r: Outcome)
    ensures r == Navigate("/groups/" + groupId) <==> result == Truthy
    ensures r == ShowError(CreateFailed) <==> result != Truthy
  {
    AfterCall(groupId, result, CreateFailed)
  }

  /** A chosen file: its MIME type and its size in bytes. */
  datatype File = File(mimeType: string, size: int)

  datatype ImageVerdict = NoFile | Refused(message: string) | Accepted(file: File)

  const NotAnImage := "Por favor, selecione uma imagem válida"
  const TooLarge := "A imagem deve ter no máximo 5MB"

  /** The largest accepted image, 5 MiB. */
  const MaxImageBytes := 5 * 1024 * 1024

  /** The check on the first chosen file: the type first, then the size. */
  function CheckImage(file: Option<File>): (r: ImageVerdict)
    ensures r.NoFile? <==> file.None?
    ensures r == Refused(NotAnImage) <==> file.Some? && !("image/" <= file.value.mimeType)
    ensures r == Refused(TooLarge) <==> file.Some? && "image/" <= file.value.mimeType && file.value.size > 5242880
    ensures r.Accepted? <==> file.Some? && "image/" <= file.value.mimeType && file.value.size <= 5242880
    ensures r.Accepted? ==> r.file == file.value
  {
    match file
    case None => NoFile
    case Some(f) =>
      if !("image/" <= f.mimeType) then Refused(NotAnImage)
      else if f.size > MaxImageBytes then Refused(TooLarge)
      else Accepted(f)
  }
}

=== FILE: event_item.dfy ===
/**
 * One event card: whether the event lies ahead, is under way or is over, how long it lasts,
 * who confirmed, what the signed-in user answered, and the guard on posting a comment.
 */
module EventItem {
  import opened Wrappers
  import opened Seqs
  import opened Domain
  import Text

  datatype Status = Future | Current | Past

  /** The card's classification at instant `now`: ahead until the start, over after the end,
      under way otherwise. */
  function StatusOf(now: int, e: Event): (r: Status)
    ensures r == Future <==> now < e.startDate
    ensures r == Past <==> e.startDate <= now && e.endDate < now
    ensures r == Current <==> e.startDate <= now <= e.endDate
  {
    if now < e.startDate then Future else if now > e.endDate then Past else Current
  }

  /** For a well-formed window exactly one status holds, each for its own stretch of time. */
  lemma StatusPartitionsTime(now: int, e: Event)
    requires e.startDate <= e.endDate
    ensures StatusOf(now, e) == Future <==> now < e.startDate
    ensures StatusOf(now, e) == Current <==> e.startDate <= now <= e.endDate
    ensures StatusOf(now, e) == Past <==> e.endDate < now
  {
  }

  /** The status only moves forward as time passes. */
  lemma StatusMonotone(now: int, later: int, e: Event)
    requires now <= later
    ensures StatusOf(now, e) == Current ==> StatusOf(later, e) != Future
    ensures StatusOf(now, e) == Past ==> StatusOf(later, e) == Past
  {
  }

  const MillisPerHour := 1000 * 60 * 60

  /** The length of the event in hours. */
  function DurationHours(e: Event): (r: real)
    ensures r * MillisPerHour as real == (e.endDate - e.startDate) as real
    ensures e.startDate <= e.endDate ==> r >= 0.0
  {
    (e.endDate - e.startDate) as real / MillisPerHour as real
  }

  /** An event that spans a whole number of hours lasts that many hours. */
  lemma DurationOfWholeHours(e: Event, h: int)
    requires e.endDate == e.startDate + h * MillisPerHour
    ensures DurationHours(e) == h as real
  {
  }

  /** The attendance buttons are offered until the event is over. */
  function ShowsAttendanceButtons(now: int, e: Event): (r: bool)
    ensures r <==> now < e.startDate || now <= e.endDate
  {
    StatusOf(now, e) != Past
  }

  function IsConfirmed(a: Attendee): bool {
    a.status == "sim"
  }

  /** The participants listed on the card: the attendees who answered `sim`, in order. */
  function Confirmed(e: Event): (r: seq<Attendee>)
    ensures forall i :: 0 <= i < |r| ==> r[i].status == "sim"
    ensures forall i :: 0 <= i < |e.attendees| && e.attendees[i].status == "sim" ==> e.attendees[i] in r
  {
    Filter(e.attendees, IsConfirmed)
  }

  /** The participant count equals the number of attendees who answered `sim`. */
  lemma ConfirmedCount(e: Event)
    ensures |Confirmed(e)| == Count(e.attendees, IsConfirmed)
    ensures |Confirmed(e)| <= |e.attendees|
  {
    FilterCount(e.attendees, IsConfirmed);
  }

  /** The answer a card shows before the lookup finds one. */
  const InitialUserStatus := "talvez"

  /** The first attendee record of the user, if any (`Array.prototype.find`). */
  function FindAttendee(attendees: seq<Attendee>, userId: string): (r: Option<nat>)
    ensures r.Some? ==> r.value < |attendees| && attendees[r.value].userId == userId
    ensures r.Some? ==> forall j :: 0 <= j < r.value ==> attendees[j].userId != userId
    ensures r.None? ==> forall j :: 0 <= j < |attendees| ==> attendees[j].userId != userId
  {
    if |attendees| == 0 then None
    else if attendees[0].userId == userId then Some(0)
    else match FindAttendee(attendees[1..], userId)
      case None => None
      case Some(k) => Some(k + 1)
  }

  /** The lookup effect: with a signed-in user who has a record, the card shows that record's
      answer; otherwise it keeps what it showed. */
  function SyncUserStatus(shown: string, userId: Option<string>, e: Event): (r: string)
    ensures userId.None? ==> r == shown
    ensures userId.Some? && (forall j :: 0 <= j < |e.attendees| ==> e.attendees[j].userId != userId.value)
            ==> r == shown
    ensures forall i :: 0 <= i < |e.attendees| && userId.Some? && e.attendees[i].userId == userId.value
                        && (forall j :: 0 <= j < i ==> e.attendees[j].userId != userId.value)
                        ==> r == e.attendees[i].status
  {
    if userId.None? then shown
    else match FindAttendee(e.attendees, userId.value)
      case None => shown
      case Some(i) => e.attendees[i].status
  }

  /** A fresh card shows `talvez` unless the user already answered. */
  lemma FreshCardStatus(userId: string, e: Event)
    requires forall j :: 0 <= j < |e.attendees| ==> e.attendees[j].userId != userId
    ensures SyncUserStatus(InitialUserStatus, Some(userId), e) == "talvez"
  {
  }

  /** The outcome of submitting the comment box: the text sent, if any, and the box after. */
  datatype CommentStep = CommentStep(sent: Option<string>, draft: string)

  /** A blank comment is dropped and the box keeps it; any other is sent as typed, untrimmed,
      and the box is cleared. */
  function SubmitComment(draft: string): (r: CommentStep)
    ensures r.sent.None? <==> Text.AllBlank(draft)
    ensures r.sent.Some? ==> r.sent.value == draft && r.draft == ""
    ensures r.sent.None? ==> r.draft == draft
  {
    Text.TrimEmptyIffBlank(draft);
    if Text.Trim(draft) == "" then CommentStep(None, draft) else CommentStep(Some(draft), "")
  }
}

=== FILE: event_list.dfy ===
/**
 * The group's event list: the filter buttons (all, upcoming, current, past) and the order each
 * filter shows its events in.
 */
module EventList {
  import opened Seqs
  import opened Sorting
  import opened Domain
  import EventItem

  /** The filter a fresh list starts with. */
  const InitialFilter := "all"

  /** Whether an event passes `filter` at instant `now`; any filter other than the three named
      ones keeps every event. */
  function Keeps(filter: string, now: int): Event -> bool {
    (e: Event) =>
      if filter == "upcoming" then e.startDate > now
      else if filter == "current" then e.startDate <= now && e.endDate >= now
      else if filter == "past" then e.endDate < now
      else true
  }

  /** The events that pass the filter, in the group's order. */
  function Filtered(events: seq<Event>, filter: string, now: int): (r: seq<Event>)
    ensures multiset(r) <= multiset(events)
    ensures forall i :: 0 <= i < |r| ==> Keeps(filter, now)(r[i])
  {
    if filter == "upcoming" || filter == "current" || filter == "past" then Filter(events, Keeps(filter, now))
    else events
  }

  function StartKey(e: Event): real {
    e.startDate as real
  }

  function EndKey(e: Event): real {
    e.endDate as real
  }

  /** Past events show the most recently ended first; every other filter shows the soonest start
      first. */
  function Comparator(filter: string): (Event, Event) -> real {
    (a: Event, b: Event) =>
      if filter == "past" then (b.endDate - a.endDate) as real else (a.startDate - b.startDate) as real
  }

  /** The list shown for the group's events, the filter and the instant. */
  function Shown(events: seq<Event>, filter: string, now: int): (r: seq<Event>)
    ensures multiset(r) <= multiset(events)
    ensures forall i :: 0 <= i < |r| ==> Keeps(filter, now)(r[i])
  {
    var f := Filtered(events, filter, now);
    var r := Sort(f, Comparator(filter));
    PermutationKeeps(f, r, Keeps(filter, now));
    r
  }

  /** An event of the group is shown exactly when it passes the filter, and as many times as it
      occurs in the group's list. */
  lemma ShownIffKept(events: seq<Event>, filter: string, now: int)
    ensures forall i :: 0 <= i < |events| ==> (events[i] in Shown(events, filter, now) <==> Keeps(filter, now)(events[i]))
    ensures forall e :: multiset(Shown(events, filter, now))[e]
                        == if Keeps(filter, now)(e) then multiset(events)[e] else 0
  {
    var f := Filtered(events, filter, now);
    var r := Shown(events, filter, now);
    assert multiset(r) == multiset(f);
    forall e ensures multiset(r)[e] == if Keeps(filter, now)(e) then multiset(events)[e] else 0 {
      if filter == "upcoming" || filter == "current" || filter == "past" {
        FilterMultiplicity(events, Keeps(filter, now), e);
      }
    }
    forall i | 0 <= i < |events| && Keeps(filter, now)(events[i])
      ensures events[i] in r
    {
      assert events[i] in f;
      assert events[i] in multiset(f);
    }
    forall i | 0 <= i < |events| && events[i] in r
      ensures Keeps(filter, now)(events[i])
    {
      var j :| 0 <= j < |r| && r[j] == events[i];
    }
  }

  /** `all` (and any unknown filter) shows every event of the group. */
  lemma AllShowsEverything(events: seq<Event>, filter: string, now: int)
    requires filter != "upcoming" && filter != "current" && filter != "past"
    ensures multiset(Shown(events, filter, now)) == multiset(events)
  {
  }

  /** The past list is ordered by end, latest first; every other list by start, earliest first.
      Events with equal keys keep the group's order. */
  lemma ShownOrder(events: seq<Event>, filter: string, now: int)
    ensures filter == "past" ==> Ordered(Shown(events, filter, now), EndKey, Desc)
    ensures filter == "past" ==> forall v :: Ties(Shown(events, filter, now), EndKey, v)
                                             == Ties(Filtered(events, filter, now), EndKey, v)
    ensures filter != "past" ==> Ordered(Shown(events, filter, now), StartKey, Asc)
    ensures filter != "past" ==> forall v :: Ties(Shown(events, filter, now), StartKey, v)
                                             == Ties(Filtered(events, filter, now), StartKey, v)
  {
    var f := Filtered(events, filter, now);
    if filter == "past" {
      forall a, b | a in f && b in f ensures Comparator(filter)(a, b) == KeyDiff(EndKey, Desc, a, b) {
      }
      SortCorrect(f, Comparator(filter), EndKey, Desc);
    } else {
      forall a, b | a in f && b in f ensures Comparator(filter)(a, b) == KeyDiff(StartKey, Asc, a, b) {
      }
      SortCorrect(f, Comparator(filter), StartKey, Asc);
    }
  }

  /** For an event whose window is well formed, exactly one of the three filters keeps it, and
      it is the one that matches the card's status. */
  lemma FiltersMatchStatus(e: Event, now: int)
    requires e.startDate <= e.endDate
    ensures Keeps("upcoming", now)(e) <==> EventItem.StatusOf(now, e) == EventItem.Future
    ensures Keeps("current", now)(e) <==> EventItem.StatusOf(now, e) == EventItem.Current
    ensures Keeps("past", now)(e) <==> EventItem.StatusOf(now, e) == EventItem.Past
  {
  }

  /** Without a well-formed window the agreement fails: an event ending before it starts, looked
      at in between, is both upcoming and past. */
  lemma InvertedWindowInTwoFilters(e: Event, now: int)
    requires e.endDate < now < e.startDate
    ensures Keeps("upcoming", now)(e) && Keeps("past", now)(e)
    ensures EventItem.StatusOf(now, e) == EventItem.Future
  {
  }
}

=== FILE: event_store.dfy ===
/**
 * The event store: the group's events and the event being viewed, with the loading and error
 * flags, changed only through the reducer. The `events` list is never written by any action.
 */
module EventStore {
  import opened Wrappers
  import opened Seqs
  import opened Domain

  datatype State = State(events: seq<Event>, groupEvents: seq<Event>, currentEvent: Option<Event>,
                         loading: bool, error: Option<string>)

  /** No events, no current event, loading, no error. */
  function InitialState(): (s: State)
    ensures s.events == [] && s.groupEvents == [] && s.currentEvent.None? && s.loading && s.error.None?
  {
    State([], [], None, true, None)
  }

  datatype Action =
    | GetGroupEvents(events: seq<Event>)
    | GetEvent(event: Event)
    | CreateEvent(event: Event)
    | UpdateEvent(event: Event)
    | UpdateAttendance(attendees: seq<Attendee>)
    | AddComment(comments: seq<Comment>)
    | EventError(message: string)
    | ClearError
    | SetLoading
    | Unknown(kind: string)

  /** The events with `e`'s id replaced by `e`, everything else in place. */
  function ReplaceEvent(events: seq<Event>, e: Event): (r: seq<Event>)
    ensures |r| == |events|
    ensures forall i :: 0 <= i < |events| ==> r[i].id == events[i].id
    ensures forall i :: 0 <= i < |events| && events[i].id == e.id ==> r[i] == e
    ensures forall i :: 0 <= i < |events| && events[i].id != e.id ==> r[i] == events[i]
  {
    MapWhere(events, (x: Event) => x.id == e.id, (_: Event) => e)
  }

  /** The event being viewed, or the blank record that spreading `null` gives. */
  function CurrentOrBlank(s: State): Event {
    if s.currentEvent.Some? then s.currentEvent.value else BlankEvent()
  }

  /** The reducer. */
  function Reduce(s: State, a: Action): (r: State)
    ensures r.events == s.events
    ensures a.GetGroupEvents? ==> r == s.(groupEvents := a.events, loading := false)
    ensures a.GetEvent? ==> r == s.(currentEvent := Some(a.event), loading := false)
    ensures a.CreateEvent? ==> |r.groupEvents| == |s.groupEvents| + 1 && r.groupEvents[0] == a.event
                               && r.groupEvents[1..] == s.groupEvents
    ensures a.CreateEvent? ==> r.currentEvent == s.currentEvent && r.error == s.error && !r.loading
    ensures a.UpdateEvent? ==> r.groupEvents == ReplaceEvent(s.groupEvents, a.event)
                               && r.currentEvent == Some(a.event) && r.error == s.error && !r.loading
    ensures a.UpdateAttendance? ==> r.groupEvents == s.groupEvents && r.error == s.error && !r.loading
    ensures a.UpdateAttendance? ==> r.currentEvent.Some? && r.currentEvent.value.attendees == a.attendees
    ensures a.UpdateAttendance? && s.currentEvent.Some? ==>
              r.currentEvent.value.(attendees := s.currentEvent.value.attendees) == s.currentEvent.value
    ensures a.AddComment? ==> r.groupEvents == s.groupEvents && r.error == s.error && !r.loading
    ensures a.AddComment? ==> r.currentEvent.Some? && r.currentEvent.value.comments == a.comments
    ensures a.AddComment? && s.currentEvent.Some? ==>
              r.currentEvent.value.(comments := s.currentEvent.value.comments) == s.currentEvent.value
    ensures a.EventError? ==> r == s.(error := Some(a.message), loading := false)
    ensures a.ClearError? ==> r == s.(error := None)
    ensures a.SetLoading? ==> r == s.(loading := true)
    ensures a.Unknown? ==> r == s
  {
    match a
    case GetGroupEvents(events) => s.(groupEvents := events, loading := false)
    case GetEvent(event) => s.(currentEvent := Some(event), loading := false)
    case CreateEvent(event) => s.(groupEvents := [event] + s.groupEvents, loading := false)
    case UpdateEvent(event) => s.(groupEvents := ReplaceEvent(s.groupEvents, event), currentEvent := Some(event), loading := false)
    case UpdateAttendance(attendees) => s.(currentEvent := Some(CurrentOrBlank(s).(attendees := attendees)), loading := false)
    case AddComment(comments) => s.(currentEvent := Some(CurrentOrBlank(s).(comments := comments)), loading := false)
    case EventError(message) => s.(error := Some(message), loading := false)
    case ClearError => s.(error := None)
    case SetLoading => s.(loading := true)
    case Unknown(_) => s
  }

  /** Repeating an update changes nothing more. */
  lemma UpdateIdempotent(s: State, e: Event)
    ensures Reduce(Reduce(s, UpdateEvent(e)), UpdateEvent(e)) == Reduce(s, UpdateEvent(e))
  {
    MapWhereIdempotent(s.groupEvents, (x: Event) => x.id == e.id, (_: Event) => e);
  }

  /** An attendance change and a new comment list touch different fields of the viewed event,
      so they can arrive in either order. */
  lemma AttendanceAndCommentsCommute(s: State, attendees: seq<Attendee>, comments: seq<Comment>)
    ensures Reduce(Reduce(s, UpdateAttendance(attendees)), AddComment(comments))
            == Reduce(Reduce(s, AddComment(comments)), UpdateAttendance(attendees))
  {
  }

  /** A created event is upcoming for the list until it starts: the list's count of events
      starting after `now` grows by one exactly when the new event does. */
  lemma CreateCountsUpcoming(s: State, e: Event, now: int)
    ensures Count(Reduce(s, CreateEvent(e)).groupEvents, (x: Event) => x.startDate > now)
            == (if e.startDate > now then 1 else 0) + Count(s.groupEvents, (x: Event) => x.startDate > now)
  {
    assert Reduce(s, CreateEvent(e)).groupEvents[1..] == s.groupEvents;
  }
}

=== FILE: group_stats.dfy ===
/**
 * The group statistics panel: the group's running totals, the number of events and of events
 * still to come, and the per-member and per-event averages derived from them.
 */
module GroupStats {
  import opened Wrappers
  import opened Seqs
  import opened Domain
  import opened Dashboard
  import EventItem
  import EventList

  datatype Stats = Stats(totals: Totals, totalEvents: nat, upcomingEvents: nat)

  /** The panel before any group is loaded: everything 0. */
  function InitialStats(): (s: Stats)
    ensures s.totalEvents == 0 && s.upcomingEvents == 0
    ensures s.totals.totalDrinks == 0.0 && s.totals.totalLiters == 0.0 && s.totals.totalPoints == 0.0
            && s.totals.totalPartyHours == 0.0
  {
    Stats(Totals(0.0, 0.0, 0.0, 0.0), 0, 0)
  }

  /** An event still to come at `now`. */
  function IsUpcoming(now: int): Event -> bool {
    (e: Event) => e.startDate > now
  }

  /** The refresh effect: with a current group, its totals (missing ones as 0), the number of
      events and the number still to come; without one, the panel keeps what it showed. */
  function OnChange(stats: Stats, currentGroup: Option<Group>, groupEvents: seq<Event>, now: int): (r: Stats)
    ensures currentGroup.None? ==> r == stats
    ensures currentGroup.Some? ==> r.totals == GroupTotals(currentGroup.value)
    ensures currentGroup.Some? ==> r.totalEvents == |groupEvents|
    ensures currentGroup.Some? ==> r.upcomingEvents == Count(groupEvents, IsUpcoming(now))
    ensures r.upcomingEvents <= r.totalEvents || r == stats
  {
    if currentGroup.Some? then
      FilterCount(groupEvents, IsUpcoming(now));
      Stats(GroupTotals(currentGroup.value), |groupEvents|, |Filter(groupEvents, IsUpcoming(now))|)
    else stats
  }

  /** A panel refreshed from a group never shows more upcoming events than events. */
  lemma UpcomingAtMostTotal(stats: Stats, g: Group, groupEvents: seq<Event>, now: int)
    ensures OnChange(stats, Some(g), groupEvents, now).upcomingEvents
            <= OnChange(stats, Some(g), groupEvents, now).totalEvents
  {
    CountBounds(groupEvents, IsUpcoming(now));
  }

  /** The panel's upcoming count is the length of the event list's `upcoming` filter, and an
      event counts exactly when its card says it lies ahead. */
  lemma UpcomingAgreesWithList(stats: Stats, g: Group, groupEvents: seq<Event>, now: int)
    ensures OnChange(stats, Some(g), groupEvents, now).upcomingEvents
            == |EventList.Filtered(groupEvents, "upcoming", now)|
    ensures forall i :: 0 <= i < |groupEvents| ==>
              (IsUpcoming(now)(groupEvents[i]) <==> EventItem.StatusOf(now, groupEvents[i]) == EventItem.Future)
  {
    FilterAgree(groupEvents, IsUpcoming(now), EventList.Keeps("upcoming", now));
    FilterCount(groupEvents, IsUpcoming(now));
  }

  /** A per-member average: `None` is the panel's `'0'` for a group without members. */
  function PerMember(total: real, members: seq<Member>): (r: Option<real>)
    ensures r.Some? <==> |members| > 0
    ensures r.Some? ==> r.value * |members| as real == total
  {
    if |members| > 0 then Some(total / |members| as real) else None
  }

  datatype MemberAverages = MemberAverages(drinks: Option<real>, liters: Option<real>,
                                           points: Option<real>, hours: Option<real>)

  /** The four per-member averages; each divides only when the group has members. */
  function AveragesPerMember(stats: Stats, members: seq<Member>): (r: MemberAverages)
    ensures |members| == 0 ==> r == MemberAverages(None, None, None, None)
    ensures |members| > 0 ==> r.drinks.Some? && r.liters.Some? && r.points.Some? && r.hours.Some?
    ensures |members| > 0 ==> && r.drinks.value * |members| as real == stats.totals.totalDrinks
                              && r.liters.value * |members| as real == stats.totals.totalLiters
                              && r.points.value * |members| as real == stats.totals.totalPoints
                              && r.hours.value * |members| as real == stats.totals.totalPartyHours
  {
    MemberAverages(PerMember(stats.totals.totalDrinks, members), PerMember(stats.totals.totalLiters, members),
                   PerMember(stats.totals.totalPoints, members), PerMember(stats.totals.totalPartyHours, members))
  }

  datatype EventAverages = EventAverages(drinks: real, liters: real, hours: real)

  /** The per-event section: shown only when there are events, so it never divides by zero. */
  function AveragesPerEvent(stats: Stats): (r: Option<EventAverages>)
    ensures r.Some? <==> stats.totalEvents > 0
    ensures r.Some? ==> r.value.drinks * stats.totalEvents as real == stats.totals.totalDrinks
                        && r.value.liters * stats.totalEvents as real == stats.totals.totalLiters
                        && r.value.hours * stats.totalEvents as real == stats.totals.totalPartyHours
  {
    if stats.totalEvents > 0 then
      var n := stats.totalEvents as real;
      Some(EventAverages(stats.totals.totalDrinks / n, stats.totals.totalLiters / n, stats.totals.totalPartyHours / n))
    else None
  }
}

=== FILE: group_store.dfy ===
/**
 * The group store: the user's groups, the group being viewed, and the loading and error flags,
 * changed only by dispatching actions to a pure reducer.
 */
module GroupStore {
  import opened Wrappers
  import opened Seqs
  import opened Domain

  datatype State = State(groups: seq<Group>, currentGroup: Option<Group>, loading: bool, error: Option<string>)

  /** No groups, no current group, loading, no error. */
  function InitialState(): (s: State)
    ensures s.groups == [] && s.currentGroup.None? && s.loading && s.error.None?
  {
    State([], None, true, None)
  }

  datatype Action =
    | GetGroups(groups: seq<Group>)
    | GetGroup(group: Group)
    | CreateGroup(group: Group)
    | UpdateGroup(group: Group)
    | AddMember(members: seq<Member>)
    | RemoveMember(userId: string)
    | GroupError(message: string)
    | ClearError
    | SetLoading
    | Unknown(kind: string)

  /** The groups with `g`'s id replaced by `g`, everything else in place. */
  function ReplaceGroup(groups: seq<Group>, g: Group): (r: seq<Group>)
    ensures |r| == |groups|
    ensures forall i :: 0 <= i < |groups| ==> r[i].id == groups[i].id
    ensures forall i :: 0 <= i < |groups| ==> (r[i] == g || r[i] == groups[i])
    ensures forall i :: 0 <= i < |groups| && groups[i].id == g.id ==> r[i] == g
    ensures forall i :: 0 <= i < |groups| && groups[i].id != g.id ==> r[i] == groups[i]
  {
    MapWhere(groups, (x: Group) => x.id == g.id, (_: Group) => g)
  }

  /** Members other than the one with the given user id, in order. */
  function WithoutMember(members: seq<Member>, userId: string): (r: seq<Member>)
    ensures forall i :: 0 <= i < |r| ==> r[i].user.id != userId
    ensures forall i :: 0 <= i < |members| && members[i].user.id != userId ==> members[i] in r
    ensures multiset(r) <= multiset(members)
  {
    Filter(members, (m: Member) => m.user.id != userId)
  }

  /** Removing a member is possible only while a group is being viewed: the reducer reads the
      current group's members. */
  predicate Dispatchable(s: State, a: Action) {
    a.RemoveMember? ==> s.currentGroup.Some?
  }

  /** The reducer. */
  function Reduce(s: State, a: Action): (r: State)
    requires Dispatchable(s, a)
    ensures a.GetGroups? ==> r == s.(groups := a.groups, loading := false)
    ensures a.GetGroup? ==> r == s.(currentGroup := Some(a.group), loading := false)
    ensures a.CreateGroup? ==> |r.groups| == |s.groups| + 1 && r.groups[0] == a.group && r.groups[1..] == s.groups
                               && r.currentGroup == s.currentGroup && r.error == s.error && !r.loading
    ensures a.UpdateGroup? ==> r.groups == ReplaceGroup(s.groups, a.group)
    ensures a.UpdateGroup? ==> r.currentGroup == Some(a.group) && r.error == s.error && !r.loading
    ensures a.AddMember? ==> r.currentGroup.Some? && r.currentGroup.value.members == a.members
                             && r.groups == s.groups && r.error == s.error && !r.loading
    ensures a.AddMember? && s.currentGroup.Some? ==> r.currentGroup == Some(s.currentGroup.value.(members := a.members))
    ensures a.RemoveMember? ==> r.groups == s.groups && r.error == s.error && !r.loading && r.currentGroup.Some?
    ensures a.RemoveMember? ==> r.currentGroup.value.(members := s.currentGroup.value.members) == s.currentGroup.value
    ensures a.RemoveMember? ==> r.currentGroup.value.members
                                == Filter(s.currentGroup.value.members, (m: Member) => m.user.id != a.userId)
    ensures a.GroupError? ==> r == s.(error := Some(a.message), loading := false)
    ensures a.ClearError? ==> r == s.(error := None)
    ensures a.SetLoading? ==> r == s.(loading := true)
    ensures a.Unknown? ==> r == s
  {
    match a
    case GetGroups(groups) => s.(groups := groups, loading := false)
    case GetGroup(group) => s.(currentGroup := Some(group), loading := false)
    case CreateGroup(group) => s.(groups := [group] + s.groups, loading := false)
    case UpdateGroup(group) => s.(groups := ReplaceGroup(s.groups, group), currentGroup := Some(group), loading := false)
    case AddMember(members) =>
      var g := if s.currentGroup.Some? then s.currentGroup.value.(members := members) else GroupWithMembersOnly(members);
      s.(currentGroup := Some(g), loading := false)
    case RemoveMember(userId) =>
      var g := s.currentGroup.value;
      s.(currentGroup := Some(g.(members := WithoutMember(g.members, userId))), loading := false)
    case GroupError(message) => s.(error := Some(message), loading := false)
    case ClearError => s.(error := None)
    case SetLoading => s.(loading := true)
    case Unknown(_) => s
  }

  /** Repeating an update changes nothing more. */
  lemma UpdateIdempotent(s: State, g: Group)
    ensures Reduce(Reduce(s, UpdateGroup(g)), UpdateGroup(g)) == Reduce(s, UpdateGroup(g))
  {
    MapWhereIdempotent(s.groups, (x: Group) => x.id == g.id, (_: Group) => g);
  }

  /** Removing the same member twice is removing it once. */
  lemma RemoveIdempotent(s: State, userId: string)
    requires s.currentGroup.Some?
    ensures Reduce(Reduce(s, RemoveMember(userId)), RemoveMember(userId)) == Reduce(s, RemoveMember(userId))
  {
    FilterIdempotent(s.currentGroup.value.members, (m: Member) => m.user.id != userId);
  }
}

=== FILE: pagination.dfy ===
/**
 * The page selector under a paginated list: which page numbers and `...` markers it shows,
 * and when it is shown at all; plus the page/limit state of the pagination hook.
 */
module Pagination {
  import opened Wrappers

  datatype Item = Page(n: int) | Ellipsis

  /** Up to this many pages are listed one by one. */
  const MaxVisiblePages := 5

  function Max(a: int, b: int): int { if a >= b then a else b }
  function Min(a: int, b: int): int { if a <= b then a else b }

  /** `Page(lo), Page(lo + 1), ..., Page(hi)`; empty when `hi < lo`. */
  function Run(lo: int, hi: int): (r: seq<Item>)
    ensures |r| == Max(0, hi - lo + 1)
    ensures forall i :: 0 <= i < |r| ==> r[i] == Page(lo + i)
  {
    seq(Max(0, hi - lo + 1), i => Page(lo + i))
  }

  /** First page of the middle run when the pages do not all fit. */
  function MiddleStart(currentPage: int, totalPages: int): (start: int) {
    if currentPage >= totalPages - 1 then Max(2, totalPages - 3) else Max(2, currentPage - 1)
  }

  /** Last page of the middle run when the pages do not all fit. */
  function MiddleEnd(currentPage: int, totalPages: int): (end: int) {
    if currentPage <= 2 then Min(totalPages - 1, 4) else Min(totalPages - 1, currentPage + 1)
  }

  /** The entries of the selector: every page when there are at most five; otherwise the first
      page, the middle run around the current page, the last page, and `...` over each gap. */
  function PageNumbers(currentPage: int, totalPages: int): (items: seq<Item>) {
    if totalPages <= MaxVisiblePages then Run(1, totalPages)
    else
      var start := MiddleStart(currentPage, totalPages);
      var end := MiddleEnd(currentPage, totalPages);
      [Page(1)]
      + (if start > 2 then [Ellipsis] else [])
      + Run(start, end)
      + (if end < totalPages - 1 then [Ellipsis] else [])
      + (if totalPages > 1 then [Page(totalPages)] else [])
  }

  /** The pages listed in `r` are strictly increasing; two neighbouring pages are consecutive
      numbers, and a `...` sits exactly between two pages more than one apart. */
  ghost predicate WellSpaced(r: seq<Item>) {
    && (forall i, j | 0 <= i < j < |r| && r[i].Page? && r[j].Page? :: r[i].n < r[j].n)
    && (forall i | 0 <= i < |r| - 1 && r[i].Page? && r[i + 1].Page? :: r[i + 1].n == r[i].n + 1)
    && (forall i | 0 <= i < |r| && r[i].Ellipsis? ::
          0 < i < |r| - 1 && r[i - 1].Page? && r[i + 1].Page? && r[i + 1].n > r[i - 1].n + 1)
  }

  /** Every page listed in `r` is a real page. */
  ghost predicate WithinPages(r: seq<Item>, totalPages: int) {
    forall i | 0 <= i < |r| && r[i].Page? :: 1 <= r[i].n <= totalPages
  }

  /** With at most five pages, every page is listed, in order, and nothing else. */
  lemma FewPagesAllListed(currentPage: int, totalPages: int)
    requires totalPages <= MaxVisiblePages
    ensures |PageNumbers(currentPage, totalPages)| == Max(0, totalPages)
    ensures forall i :: 0 <= i < |PageNumbers(currentPage, totalPages)| ==>
              PageNumbers(currentPage, totalPages)[i] == Page(i + 1)
  {
  }

  /** With more than five pages the middle run is exactly three pages inside `[2, totalPages - 1]`. */
  lemma MiddleRun(currentPage: int, totalPages: int)
    requires totalPages > MaxVisiblePages
    ensures 2 <= MiddleStart(currentPage, totalPages)
    ensures MiddleEnd(currentPage, totalPages) <= totalPages - 1
    ensures MiddleEnd(currentPage, totalPages) == MiddleStart(currentPage, totalPages) + 2
  {
  }

  /** The selector for more than five pages is one of three shapes: first page, optional `...`,
      three consecutive pages, optional `...`, last page. */
  lemma ManyPagesShape(currentPage: int, totalPages: int)
    requires totalPages > MaxVisiblePages
    ensures var s := MiddleStart(currentPage, totalPages);
            var mid := [Page(s), Page(s + 1), Page(s + 2)];
            PageNumbers(currentPage, totalPages) ==
              [Page(1)] + (if s > 2 then [Ellipsis] else []) + mid
              + (if s + 2 < totalPages - 1 then [Ellipsis] else []) + [Page(totalPages)]
  {
    MiddleRun(currentPage, totalPages);
    var s := MiddleStart(currentPage, totalPages);
    assert Run(s, MiddleEnd(currentPage, totalPages)) == [Page(s), Page(s + 1), Page(s + 2)];
  }

  /** Both gaps are elided. */
  lemma BothGapsWellFormed(s: int, totalPages: int)
    requires 2 < s && s + 2 < totalPages - 1
    ensures var r := [Page(1), Ellipsis, Page(s), Page(s + 1), Page(s + 2), Ellipsis, Page(totalPages)];
            WithinPages(r, totalPages) && WellSpaced(r)
  {
  }

  /** Only the gap after page 1 is elided. */
  lemma LeftGapWellFormed(s: int, totalPages: int)
    requires 2 < s && s + 2 == totalPages - 1
    ensures var r := [Page(1), Ellipsis, Page(s), Page(s + 1), Page(s + 2), Page(totalPages)];
            WithinPages(r, totalPages) && WellSpaced(r)
  {
  }

  /** Only the gap before the last page is elided. */
  lemma RightGapWellFormed(s: int, totalPages: int)
    requires 2 == s && s + 2 < totalPages - 1
    ensures var r := [Page(1), Page(s), Page(s + 1), Page(s + 2), Ellipsis, Page(totalPages)];
            WithinPages(r, totalPages) && WellSpaced(r)
  {
  }

  /** With more than five pages: the first entry is page 1 and the last is the last page, six or
      seven entries are shown (at least one gap is elided), all of them real pages, well spaced by `...`, and the current
      page is among them whenever it is a real page. */
  lemma ManyPagesWellFormed(currentPage: int, totalPages: int)
    requires totalPages > MaxVisiblePages
    ensures var r := PageNumbers(currentPage, totalPages);
            && 6 <= |r| <= 7
            && r[0] == Page(1) && r[|r| - 1] == Page(totalPages)
            && WithinPages(r, totalPages)
            && WellSpaced(r)
            && (1 <= currentPage <= totalPages ==> Page(currentPage) in r)
  {
    MiddleRun(currentPage, totalPages);
    ManyPagesShape(currentPage, totalPages);
    var s := MiddleStart(currentPage, totalPages);
    var r := PageNumbers(currentPage, totalPages);
    var mid := [Page(s), Page(s + 1), Page(s + 2)];
    if 1 <= currentPage <= totalPages {
      assert Page(currentPage) in mid || currentPage == 1 || currentPage == totalPages;
    }
    if s > 2 && s + 2 < totalPages - 1 {
      assert r == [Page(1), Ellipsis, Page(s), Page(s + 1), Page(s + 2), Ellipsis, Page(totalPages)];
      BothGapsWellFormed(s, totalPages);
    } else if s > 2 {
      assert r == [Page(1), Ellipsis, Page(s), Page(s + 1), Page(s + 2), Page(totalPages)];
      LeftGapWellFormed(s, totalPages);
    } else {
      assert r == [Page(1), Page(s), Page(s + 1), Page(s + 2), Ellipsis, Page(totalPages)];
      RightGapWellFormed(s, totalPages);
    }
  }

  /** Near the start the middle run is pages 2 to 4; near the end it is the three pages before
      the last. */
  lemma MiddleNearEdges(currentPage: int, totalPages: int)
    requires totalPages > MaxVisiblePages
    ensures currentPage <= 2 ==>
              MiddleStart(currentPage, totalPages) == 2 && MiddleEnd(currentPage, totalPages) == 4
    ensures currentPage >= totalPages - 1 ==>
              MiddleStart(currentPage, totalPages) == totalPages - 3
              && MiddleEnd(currentPage, totalPages) == totalPages - 1
  {
  }

  /** Whenever there is more than one page the selector starts at page 1, ends at the last
      page, lists only real pages and is well spaced. */
  lemma SelectorWellFormed(currentPage: int, totalPages: int)
    requires totalPages > 1
    ensures var r := PageNumbers(currentPage, totalPages);
            && |r| >= 2 && r[0] == Page(1) && r[|r| - 1] == Page(totalPages)
            && WithinPages(r, totalPages) && WellSpaced(r)
  {
    if totalPages > MaxVisiblePages {
      ManyPagesWellFormed(currentPage, totalPages);
    }
  }

  /** The component: nothing at all for at most one page, otherwise the selector. */
  function Render(currentPage: int, totalPages: int): (r: Option<seq<Item>>)
    ensures r.None? <==> totalPages <= 1
    ensures r.Some? ==> |r.value| >= 2 && r.value[0] == Page(1)
                        && r.value[|r.value| - 1] == Page(totalPages)
                        && WithinPages(r.value, totalPages) && WellSpaced(r.value)
  {
    if totalPages <= 1 then None
    else
      SelectorWellFormed(currentPage, totalPages);
      Some(PageNumbers(currentPage, totalPages))
  }

  /** The pagination hook's page and page size. */
  datatype Pager = Pager(page: int, limit: int)

  function ChangePage(p: Pager, newPage: int): (r: Pager)
    ensures r.page == newPage && r.limit == p.limit
  {
    p.(page := newPage)
  }

  /** A new page size sends the list back to its first page. */
  function ChangeLimit(p: Pager, newLimit: int): (r: Pager)
    ensures r.page == 1 && r.limit == newLimit
  {
    Pager(1, newLimit)
  }
}

=== FILE: ranking_list.dfy ===
/**
 * The ranking table: the group's members with missing totals read as 0, sorted by the chosen
 * metric in the chosen direction, and the header clicks that choose them.
 *
 * The default sort key is `points`, which normalisation does not fill in: for members without a
 * `points` field every comparison is `undefined - undefined`, NaN, which the sort reads as a tie,
 * so the table keeps the group's order.
 */
module RankingList {
  import opened Wrappers
  import opened Seqs
  import opened Sorting
  import opened Domain

  /** The state the table starts in: by points, highest first. */
  function InitialSort(): SortState<string> {
    SortState("points", Desc)
  }

  /** The metrics normalisation fills in. */
  predicate IsTotal(field: string) {
    field == "totalDrinks" || field == "totalLiters" || field == "totalPoints" || field == "totalPartyHours"
  }

  /** The copy of a user shown in the table: each missing total becomes 0, the rest is kept. */
  function NormaliseUser(u: User): (r: User)
    ensures r.id == u.id && r.name == u.name && r.points == u.points
    ensures r.totalDrinks.Some? && r.totalLiters.Some? && r.totalPoints.Some? && r.totalPartyHours.Some?
    ensures u.totalDrinks.Some? ==> r.totalDrinks == u.totalDrinks
    ensures u.totalLiters.Some? ==> r.totalLiters == u.totalLiters
    ensures u.totalPoints.Some? ==> r.totalPoints == u.totalPoints
    ensures u.totalPartyHours.Some? ==> r.totalPartyHours == u.totalPartyHours
    ensures u.totalDrinks.None? ==> r.totalDrinks == Some(0.0)
    ensures u.totalLiters.None? ==> r.totalLiters == Some(0.0)
    ensures u.totalPoints.None? ==> r.totalPoints == Some(0.0)
    ensures u.totalPartyHours.None? ==> r.totalPartyHours == Some(0.0)
  {
    u.(totalDrinks := Some(OrZero(u.totalDrinks)),
       totalLiters := Some(OrZero(u.totalLiters)),
       totalPoints := Some(OrZero(u.totalPoints)),
       totalPartyHours := Some(OrZero(u.totalPartyHours)))
  }

  /** Normalising the group's member list: same length, each member's user normalised, every
      other field of the member kept. */
  function NormaliseMembers(members: seq<Member>): (r: seq<Member>)
    ensures |r| == |members|
    ensures forall i :: 0 <= i < |r| ==>
              r[i].role == members[i].role && r[i].user == NormaliseUser(members[i].user)
  {
    seq(|members|, i requires 0 <= i < |members| => members[i].(user := NormaliseUser(members[i].user)))
  }

  /** `user[field]`: the sortable fields; any other name is undefined. */
  function FieldValue(u: User, field: string): Option<real> {
    if field == "points" then u.points
    else if field == "totalDrinks" then u.totalDrinks
    else if field == "totalLiters" then u.totalLiters
    else if field == "totalPoints" then u.totalPoints
    else if field == "totalPartyHours" then u.totalPartyHours
    else None
  }

  /** `x - y` as the sort reads it: NaN, when either operand is absent (`undefined`), counts as
      0. An operand sent as `null` would subtract as 0 instead; it is not modelled. */
  function Minus(x: Option<real>, y: Option<real>): (r: real)
    ensures x.Some? && y.Some? ==> r == x.value - y.value
    ensures x.None? || y.None? ==> r == 0.0
  {
    if x.Some? && y.Some? then x.value - y.value else 0.0
  }

  /** `(a, b) => desc ? b.user[sortBy] - a.user[sortBy] : a.user[sortBy] - b.user[sortBy]` */
  function Comparator(s: SortState<string>): (Member, Member) -> real {
    (a: Member, b: Member) =>
      if s.order == Desc then Minus(FieldValue(b.user, s.sortBy), FieldValue(a.user, s.sortBy))
      else Minus(FieldValue(a.user, s.sortBy), FieldValue(b.user, s.sortBy))
  }

  /** The metric a member is ranked by, once it is known to be present. */
  function Metric(field: string): Member -> real {
    (m: Member) => OrZero(FieldValue(m.user, field))
  }

  /** The table's rows for the group's members and sort state. */
  function SortedMembers(members: seq<Member>, s: SortState<string>): (r: seq<Member>)
    ensures multiset(r) == multiset(NormaliseMembers(members))
    ensures |r| == |members|
  {
    Sort(NormaliseMembers(members), Comparator(s))
  }

  /** Where every member has the field, the comparator is the metric's difference. */
  lemma ComparatorRealises(s: SortState<string>, u: seq<Member>)
    requires forall m | m in u :: FieldValue(m.user, s.sortBy).Some?
    ensures Realises(Comparator(s), Metric(s.sortBy), s.order, u)
  {
    forall a, b | a in u && b in u
      ensures Comparator(s)(a, b) == KeyDiff(Metric(s.sortBy), s.order, a, b)
    {
      var x, y := FieldValue(a.user, s.sortBy), FieldValue(b.user, s.sortBy);
      assert x.Some? && y.Some?;
      assert Metric(s.sortBy)(a) == x.value && Metric(s.sortBy)(b) == y.value;
      if s.order == Desc {
        assert Comparator(s)(a, b) == Minus(y, x);
      } else {
        assert Comparator(s)(a, b) == Minus(x, y);
      }
    }
  }

  /** Normalised members have every total. */
  lemma NormalisedHaveTotals(members: seq<Member>, field: string)
    requires IsTotal(field)
    ensures forall m | m in NormaliseMembers(members) :: FieldValue(m.user, field).Some?
  {
  }

  /** Sorting by one of the totals: the rows are ordered by that total in the chosen direction,
      and members with equal totals keep the group's order. */
  lemma SortedByTotal(members: seq<Member>, s: SortState<string>)
    requires IsTotal(s.sortBy)
    ensures Ordered(SortedMembers(members, s), Metric(s.sortBy), s.order)
    ensures forall v :: Ties(SortedMembers(members, s), Metric(s.sortBy), v)
                        == Ties(NormaliseMembers(members), Metric(s.sortBy), v)
  {
    NormalisedHaveTotals(members, s.sortBy);
    ComparatorRealises(s, NormaliseMembers(members));
    SortCorrect(NormaliseMembers(members), Comparator(s), Metric(s.sortBy), s.order);
  }

  /** Sorting by `points` when every member has that field: ordered by points, stable. */
  lemma SortedByPresentPoints(members: seq<Member>, s: SortState<string>)
    requires s.sortBy == "points"
    requires forall i :: 0 <= i < |members| ==> members[i].user.points.Some?
    ensures Ordered(SortedMembers(members, s), Metric("points"), s.order)
    ensures forall v :: Ties(SortedMembers(members, s), Metric("points"), v)
                        == Ties(NormaliseMembers(members), Metric("points"), v)
  {
    var u := NormaliseMembers(members);
    forall m | m in u ensures FieldValue(m.user, s.sortBy).Some? {
      var i :| 0 <= i < |u| && u[i] == m;
    }
    ComparatorRealises(s, u);
    SortCorrect(u, Comparator(s), Metric("points"), s.order);
  }

  /** Sorting by `points` when no member has that field: every comparison is NaN, so the table
      shows the members in the group's order. */
  lemma SortedByMissingPoints(members: seq<Member>, s: SortState<string>)
    requires s.sortBy == "points"
    requires forall i :: 0 <= i < |members| ==> members[i].user.points.None?
    ensures SortedMembers(members, s) == NormaliseMembers(members)
  {
    var u := NormaliseMembers(members);
    forall a, b | a in u && b in u ensures Comparator(s)(a, b) == 0.0 {
      var i :| 0 <= i < |u| && u[i] == a;
      var j :| 0 <= j < |u| && u[j] == b;
      assert FieldValue(a.user, s.sortBy).None? && FieldValue(b.user, s.sortBy).None?;
      var x, y := FieldValue(a.user, s.sortBy), FieldValue(b.user, s.sortBy);
      if s.order == Desc {
        assert Comparator(s)(a, b) == Minus(y, x);
      } else {
        assert Comparator(s)(a, b) == Minus(x, y);
      }
    }
    SortKeepsOrder(u, Comparator(s));
  }

  /** The effect that refreshes the rows: only when there is a current group. */
  function OnChange(rows: seq<Member>, currentGroup: Option<Group>, s: SortState<string>): (r: seq<Member>)
    ensures currentGroup.None? ==> r == rows
    ensures currentGroup.Some? ==> multiset(r) == multiset(NormaliseMembers(currentGroup.value.members))
  {
    if currentGroup.Some? then SortedMembers(currentGroup.value.members, s) else rows
  }
}

=== FILE: register_page.dfy ===
/**
 * The registration page: editing the form clears the errors shown, submitting checks that the
 * two passwords match before calling `register`, and a signed-in visitor is sent to the groups.
 */
module RegisterPage {
  import opened Wrappers
  import AuthStore

  datatype FormData = FormData(name: string, email: string, password: string, password2: string)

  datatype Field = Name | Email | Password | Password2

  /** The page's own state: the form and the password-mismatch message. */
  datatype Page = Page(form: FormData, passwordError: string)

  function InitialPage(): (p: Page)
    ensures p.form == FormData("", "", "", "") && p.passwordError == ""
  {
    Page(FormData("", "", "", ""), "")
  }

  const Mismatch := "As senhas não coincidem"

  /** `{ ...formData, [field]: value }` */
  function SetField(f: FormData, field: Field, value: string): (r: FormData)
    ensures field == Name ==> r == f.(name := value)
    ensures field == Email ==> r == f.(email := value)
    ensures field == Password ==> r == f.(password := value)
    ensures field == Password2 ==> r == f.(password2 := value)
  {
    match field
    case Name => f.(name := value)
    case Email => f.(email := value)
    case Password => f.(password := value)
    case Password2 => f.(password2 := value)
  }

  /** A message is shown when it is a non-empty string. */
  predicate Shown(message: Option<string>) {
    message.Some? && message.value != ""
  }

  datatype Changed = Changed(page: Page, auth: AuthStore.State)

  /** Editing a field: the field takes the value, a shown authentication error is cleared through
      the store, and a shown mismatch message is emptied. */
  function OnChange(p: Page, auth: AuthStore.State, field: Field, value: string): (r: Changed)
    ensures r.page.form == SetField(p.form, field, value)
    ensures r.page.passwordError == ""
    ensures !Shown(r.auth.error)
    ensures r.auth.(error := auth.error) == auth
    ensures !Shown(auth.error) ==> r.auth == auth
  {
    var auth' := if Shown(auth.error) then AuthStore.Reduce(auth, AuthStore.ClearError).state else auth;
    var passwordError := if p.passwordError != "" then "" else p.passwordError;
    Changed(Page(SetField(p.form, field, value), passwordError), auth')
  }

  /** What `register` is called with. */
  datatype Credentials = Credentials(name: string, email: string, password: string)

  datatype Submitted = Submitted(page: Page, call: Option<Credentials>)

  /** Submitting: `register` is called with the name, e-mail and password exactly when the two
      passwords match; otherwise the mismatch message is set and nothing is called. */
  function OnSubmit(p: Page): (r: Submitted)
    ensures r.call.Some? <==> p.form.password == p.form.password2
    ensures r.call.Some? ==> r.call.value.name == p.form.name && r.call.value.email == p.form.email
                             && r.call.value.password == p.form.password == p.form.password2
    ensures r.call.Some? ==> r.page == p
    ensures r.call.None? ==> r.page == p.(passwordError := Mismatch)
  {
    if p.form.password != p.form.password2 then Submitted(p.(passwordError := Mismatch), None)
    else Submitted(p, Some(Credentials(p.form.name, p.form.email, p.form.password)))
  }

  /** After a mismatch, retyping either password lets the next submission through once the two
      agree, and the message is gone. */
  lemma RetypeAfterMismatch(p: Page, auth: AuthStore.State, value: string)
    requires p.form.password != p.form.password2
    requires p.form.password == value
    ensures OnSubmit(p).call.None?
    ensures OnChange(OnSubmit(p).page, auth, Password2, value).page.passwordError == ""
    ensures OnSubmit(OnChange(OnSubmit(p).page, auth, Password2, value).page).call
            == Some(Credentials(p.form.name, p.form.email, value))
  {
  }

  datatype View = Redirect(path: string) | Form

  /** A signed-in visitor is sent to the groups page and the form is not shown. */
  function Render(isAuthenticated: bool): (r: View)
    ensures r.Redirect? <==> isAuthenticated
    ensures r.Redirect? ==> r.path == "/groups"
  {
    if isAuthenticated then Redirect("/groups") else Form
  }
}

=== FILE: seqs.dfy ===
/** Sequence helpers shared by the components: JavaScript's `filter` and `length`, and sums. */
module Seqs {

  /** The elements of `s` that satisfy `p`, in their original order (`Array.prototype.filter`). */
  function Filter<T>(s: seq<T>, p: T -> bool): (r: seq<T>)
    ensures |r| <= |s|
    ensures multiset(r) <= multiset(s)
    ensures forall i :: 0 <= i < |r| ==> p(r[i])
    ensures forall i :: 0 <= i < |s| && p(s[i]) ==> s[i] in r
  {
    if |s| == 0 then []
    else
      assert s == [s[0]] + s[1..];
      (if p(s[0]) then [s[0]] else []) + Filter(s[1..], p)
  }

  /** Filtering distributes over concatenation. */
  lemma {:induction false} FilterAppend<T>(a: seq<T>, b: seq<T>, p: T -> bool)
    ensures Filter(a + b, p) == Filter(a, p) + Filter(b, p)
  {
    if |a| == 0 {
      assert a + b == b;
    } else {
      assert (a + b)[1..] == a[1..] + b;
      FilterAppend(a[1..], b, p);
    }
  }

  /** Filtering keeps each accepted element as often as it occurs and drops every other one. */
  lemma {:induction false} FilterMultiplicity<T>(s: seq<T>, p: T -> bool, x: T)
    ensures multiset(Filter(s, p))[x] == if p(x) then multiset(s)[x] else 0
  {
    if |s| > 0 {
      assert s == [s[0]] + s[1..];
      FilterMultiplicity(s[1..], p, x);
    }
  }

  /** Filtering with a predicate every element satisfies keeps the whole sequence. */
  lemma {:induction false} FilterAll<T>(s: seq<T>, p: T -> bool)
    requires forall i :: 0 <= i < |s| ==> p(s[i])
    ensures Filter(s, p) == s
  {
    if |s| > 0 {
      FilterAll(s[1..], p);
    }
  }

  /** Predicates that agree on the elements filter alike. */
  lemma {:induction false} FilterAgree<T>(s: seq<T>, p: T -> bool, q: T -> bool)
    requires forall i :: 0 <= i < |s| ==> p(s[i]) == q(s[i])
    ensures Filter(s, p) == Filter(s, q)
  {
    if |s| > 0 {
      assert forall i :: 0 <= i < |s| - 1 ==> s[1..][i] == s[i + 1];
      FilterAgree(s[1..], p, q);
    }
  }

  /** Filtering a second time with the same predicate changes nothing. */
  lemma FilterIdempotent<T>(s: seq<T>, p: T -> bool)
    ensures Filter(Filter(s, p), p) == Filter(s, p)
  {
    FilterAll(Filter(s, p), p);
  }

  /** The number of elements of `s` that satisfy `p`. */
  function Count<T>(s: seq<T>, p: T -> bool): nat {
    if |s| == 0 then 0 else (if p(s[0]) then 1 else 0) + Count(s[1..], p)
  }

  /** `filter(p).length` counts the elements satisfying `p`. */
  lemma {:induction false} FilterCount<T>(s: seq<T>, p: T -> bool)
    ensures |Filter(s, p)| == Count(s, p)
  {
    if |s| > 0 {
      FilterCount(s[1..], p);
    }
  }

  /** A count never exceeds the length, and reaches it exactly when every element qualifies. */
  lemma {:induction false} CountBounds<T>(s: seq<T>, p: T -> bool)
    ensures Count(s, p) <= |s|
    ensures Count(s, p) == |s| <==> forall i :: 0 <= i < |s| ==> p(s[i])
  {
    if |s| > 0 {
      CountBounds(s[1..], p);
      if Count(s, p) == |s| {
        forall i | 0 <= i < |s| ensures p(s[i]) {
          if i > 0 {
            assert s[i] == s[1..][i - 1];
          }
        }
      }
      if forall i :: 0 <= i < |s| ==> p(s[i]) {
        assert forall i :: 0 <= i < |s| - 1 ==> p(s[1..][i]) by {
          forall i | 0 <= i < |s| - 1 ensures p(s[1..][i]) {
            assert s[1..][i] == s[i + 1];
          }
        }
      }
    }
  }

  /** A property of every element survives any permutation. */
  lemma PermutationKeeps<T>(a: seq<T>, b: seq<T>, p: T -> bool)
    requires multiset(b) <= multiset(a)
    requires forall i :: 0 <= i < |a| ==> p(a[i])
    ensures forall i :: 0 <= i < |b| ==> p(b[i])
  {
    forall i | 0 <= i < |b| ensures p(b[i]) {
      assert b[i] in multiset(b);
      var j :| 0 <= j < |a| && a[j] == b[i];
    }
  }

  /** `s.map(x => matches(x) ? f(x) : x)`: matching elements rewritten, the rest kept in place. */
  function MapWhere<T>(s: seq<T>, matches: T -> bool, f: T -> T): (r: seq<T>)
    ensures |r| == |s|
    ensures forall i :: 0 <= i < |s| && !matches(s[i]) ==> r[i] == s[i]
    ensures forall i :: 0 <= i < |s| && matches(s[i]) ==> r[i] == f(s[i])
  {
    seq(|s|, i requires 0 <= i < |s| => if matches(s[i]) then f(s[i]) else s[i])
  }

  /** Rewriting twice is rewriting once when the rewrite is settled: what it produces still
      matches and is left as it is by a second rewrite. */
  lemma MapWhereIdempotent<T>(s: seq<T>, matches: T -> bool, f: T -> T)
    requires forall i :: 0 <= i < |s| && matches(s[i]) ==> matches(f(s[i])) && f(f(s[i])) == f(s[i])
    ensures MapWhere(MapWhere(s, matches, f), matches, f) == MapWhere(s, matches, f)
  {
  }

  /** The sum of `f` over the elements of `s`. */
  function Sum<T>(s: seq<T>, f: T -> real): real {
    if |s| == 0 then 0.0 else f(s[0]) + Sum(s[1..], f)
  }

  lemma {:induction false} SumAppend<T>(a: seq<T>, b: seq<T>, f: T -> real)
    ensures Sum(a + b, f) == Sum(a, f) + Sum(b, f)
  {
    if |a| == 0 {
      assert a + b == b;
    } else {
      assert (a + b)[1..] == a[1..] + b;
      SumAppend(a[1..], b, f);
    }
  }

  /** Sequences that agree elementwise on `f` have the same sum. */
  lemma {:induction false} SumPointwise<T>(a: seq<T>, b: seq<T>, f: T -> real)
    requires |a| == |b|
    requires forall i :: 0 <= i < |a| ==> f(a[i]) == f(b[i])
    ensures Sum(a, f) == Sum(b, f)
  {
    if |a| > 0 {
      assert forall i :: 0 <= i < |a| - 1 ==> a[1..][i] == a[i + 1] && b[1..][i] == b[i + 1];
      SumPointwise(a[1..], b[1..], f);
    }
  }

  /** Replacing one element changes the sum by the difference. */
  lemma {:induction false} SumUpdate<T>(s: seq<T>, i: int, x: T, f: T -> real)
    requires 0 <= i < |s|
    ensures Sum(s[i := x], f) == Sum(s, f) - f(s[i]) + f(x)
  {
    if i == 0 {
      assert s[i := x][1..] == s[1..];
    } else {
      assert s[i := x][1..] == s[1..][i - 1 := x];
      SumUpdate(s[1..], i - 1, x, f);
    }
  }

  /** A sum does not depend on the order of the elements. */
  lemma {:induction false} SumPermutation<T>(a: seq<T>, b: seq<T>, f: T -> real)
    requires multiset(a) == multiset(b)
    ensures Sum(a, f) == Sum(b, f)
  {
    if |a| == 0 {
      assert |b| == |multiset(b)| == 0;
    } else {
      var x := a[0];
      assert x in multiset(b);
      var j :| 0 <= j < |b| && b[j] == x;
      var rest := b[..j] + b[j + 1..];
      assert b == b[..j] + [x] + b[j + 1..];
      assert a == [x] + a[1..];
      assert multiset(rest) == multiset(b) - multiset{x};
      SumPermutation(a[1..], rest, f);
      SumAppend(b[..j] + [x], b[j + 1..], f);
      SumAppend(b[..j], [x], f);
      SumAppend(b[..j], b[j + 1..], f);
    }
  }
}

=== FILE: sorting.dfy ===
/**
 * Stable sorting with a JavaScript-style comparator, and the sort-toggle state shared by the
 * ranking table and the drink list.
 *
 * `Array.prototype.sort` with a comparator `cmp` puts `a` before `b` when `cmp(a, b) < 0`, treats a
 * result of 0 as a tie and keeps tied elements in input order (stable sort); a NaN result is read
 * as 0. The model takes comparators returning `real`, with NaN already mapped to 0.0 by the caller,
 * and sorts by insertion: each element, in input order, goes just before the first element of the
 * sorted prefix that it strictly precedes.
 */
module Sorting {
  datatype Order = Asc | Desc

  function Flip(o: Order): (r: Order)
    ensures r != o
  {
    if o == Asc then Desc else Asc
  }

  /** Which field a list is sorted by, and in which direction. */
  datatype SortState<F> = SortState(sortBy: F, order: Order)

  /** `handleSortChange`, the same in the ranking table and the drink list: a click on the header
      of `field` flips the direction of the current field and starts a new field descending. */
  function Toggle<F(==)>(s: SortState<F>, field: F): (r: SortState<F>)
    ensures r.sortBy == field
    ensures field == s.sortBy ==> r.order == Flip(s.order)
    ensures field != s.sortBy ==> r.order == Desc
  {
    if s.sortBy == field then s.(order := Flip(s.order)) else SortState(field, Desc)
  }

  /** Clicking the current field twice restores the state. */
  lemma ToggleTwice<F>(s: SortState<F>)
    ensures Toggle(Toggle(s, s.sortBy), s.sortBy) == s
  {
  }

  /** `a` may come before `b` in a list sorted in direction `order`. */
  predicate InOrder(a: real, b: real, order: Order) {
    if order == Asc then a <= b else a >= b
  }

  /** `s` is sorted by `key` in direction `order`. */
  ghost predicate Ordered<T>(s: seq<T>, key: T -> real, order: Order) {
    forall i, j | 0 <= i < j < |s| :: InOrder(key(s[i]), key(s[j]), order)
  }

  /** The comparator `(a, b) => a.k - b.k` (ascending) or `(a, b) => b.k - a.k` (descending). */
  function KeyDiff<T>(key: T -> real, order: Order, a: T, b: T): real {
    if order == Asc then key(a) - key(b) else key(b) - key(a)
  }

  /** On the elements of `u`, `cmp` is the difference of `key` in direction `order`. */
  ghost predicate Realises<T>(cmp: (T, T) -> real, key: T -> real, order: Order, u: seq<T>) {
    forall a, b | a in u && b in u :: cmp(a, b) == KeyDiff(key, order, a, b)
  }

  /** The comparator of `key` in direction `order`. */
  function KeyComparator<T>(key: T -> real, order: Order): (T, T) -> real {
    (a: T, b: T) => KeyDiff(key, order, a, b)
  }

  lemma KeyComparatorRealises<T>(key: T -> real, order: Order, u: seq<T>)
    ensures Realises(KeyComparator(key, order), key, order, u)
  {
  }

  /** In a sorted sequence every element of a prefix may precede every element after it. */
  lemma PrefixPrecedes<T>(s: seq<T>, n: nat, key: T -> real, order: Order)
    requires n <= |s| && Ordered(s, key, order)
    ensures forall x, y | x in s[..n] && y in s[n..] :: InOrder(key(x), key(y), order)
  {
    forall x, y | x in s[..n] && y in s[n..] ensures InOrder(key(x), key(y), order) {
      var i :| 0 <= i < n && s[..n][i] == x;
      var j :| 0 <= j < |s| - n && s[n..][j] == y;
      assert s[i] == x && s[n + j] == y;
    }
  }

  lemma RealisesOnSubset<T>(cmp: (T, T) -> real, key: T -> real, order: Order, u: seq<T>, w: seq<T>)
    requires Realises(cmp, key, order, u)
    requires forall a | a in w :: a in u
    ensures Realises(cmp, key, order, w)
  {
  }

  /** The elements of `s` whose key is `v`, in order: a stable sort keeps this sequence. */
  function Ties<T>(s: seq<T>, key: T -> real, v: real): seq<T> {
    if |s| == 0 then []
    else (if key(s[0]) == v then [s[0]] else []) + Ties(s[1..], key, v)
  }

  /** Places `x` just before the first element of `s` that it strictly precedes. */
  function Insert<T>(x: T, s: seq<T>, cmp: (T, T) -> real): (r: seq<T>)
    ensures multiset(r) == multiset(s) + multiset{x}
    ensures |r| == |s| + 1
  {
    if |s| == 0 then [x]
    else if cmp(x, s[0]) < 0.0 then [x] + s
    else
      assert s == [s[0]] + s[1..];
      [s[0]] + Insert(x, s[1..], cmp)
  }

  /** Stable insertion sort: the elements of `s` are inserted in input order. */
  function Sort<T>(s: seq<T>, cmp: (T, T) -> real): (r: seq<T>)
    ensures multiset(r) == multiset(s)
    ensures |r| == |s|
  {
    if |s| == 0 then []
    else
      assert s == s[..|s| - 1] + [s[|s| - 1]];
      Insert(s[|s| - 1], Sort(s[..|s| - 1], cmp), cmp)
  }

  lemma {:induction false} TiesAppend<T>(a: seq<T>, b: seq<T>, key: T -> real, v: real)
    ensures Ties(a + b, key, v) == Ties(a, key, v) + Ties(b, key, v)
  {
    if |a| == 0 {
      assert a + b == b;
    } else {
      TiesAppend(a[1..], b, key, v);
      assert a + b == [a[0]] + (a[1..] + b);
      assert a == [a[0]] + a[1..];
      TiesCons(a[0], a[1..] + b, key, v);
      TiesCons(a[0], a[1..], key, v);
    }
  }

  /** No element of `s` has key `v`. */
  lemma {:induction false} TiesNone<T>(s: seq<T>, key: T -> real, v: real)
    requires forall i :: 0 <= i < |s| ==> key(s[i]) != v
    ensures Ties(s, key, v) == []
  {
    if |s| > 0 {
      TiesNone(s[1..], key, v);
    }
  }

  /** An element placed at the head of a sorted list strictly precedes all of it. */
  lemma HeadPrecedesAll<T>(x: T, s: seq<T>, cmp: (T, T) -> real, key: T -> real, order: Order)
    requires Ordered(s, key, order)
    requires Realises(cmp, key, order, [x] + s)
    requires |s| > 0 && cmp(x, s[0]) < 0.0
    ensures forall i :: 0 <= i < |s| ==> key(s[i]) != key(x)
  {
    assert x in [x] + s && s[0] in [x] + s;
    forall i | 0 <= i < |s| ensures key(s[i]) != key(x) {
      if i > 0 {
        assert InOrder(key(s[0]), key(s[i]), order);
      }
    }
  }

  lemma TailRealises<T>(x: T, s: seq<T>, cmp: (T, T) -> real, key: T -> real, order: Order)
    requires |s| > 0
    requires Realises(cmp, key, order, [x] + s)
    ensures Realises(cmp, key, order, [x] + s[1..])
  {
    forall a | a in [x] + s[1..] ensures a in [x] + s {
      if a != x {
        assert a in s[1..];
      }
    }
    RealisesOnSubset(cmp, key, order, [x] + s, [x] + s[1..]);
  }

  lemma {:induction false} InsertOrdered<T>(x: T, s: seq<T>, cmp: (T, T) -> real, key: T -> real, order: Order)
    requires Ordered(s, key, order)
    requires Realises(cmp, key, order, [x] + s)
    ensures Ordered(Insert(x, s, cmp), key, order)
  {
    if |s| > 0 && cmp(x, s[0]) >= 0.0 {
      assert x in [x] + s && s[0] in [x] + s;
      assert InOrder(key(s[0]), key(x), order);
      TailRealises(x, s, cmp, key, order);
      InsertOrdered(x, s[1..], cmp, key, order);
      var r := Insert(x, s[1..], cmp);
      forall k | 0 <= k < |r| ensures InOrder(key(s[0]), key(r[k]), order) {
        assert r[k] in multiset(r);
        if r[k] != x {
          assert r[k] in multiset(s[1..]);
          var m :| 0 <= m < |s[1..]| && s[1..][m] == r[k];
          assert s[m + 1] == r[k];
        }
      }
    }
  }

  /** The suffix of a sorted sequence is sorted. */
  lemma OrderedTail<T>(s: seq<T>, key: T -> real, order: Order)
    requires |s| > 0 && Ordered(s, key, order)
    ensures Ordered(s[1..], key, order)
  {
    forall i, j | 0 <= i < j < |s| - 1 ensures InOrder(key(s[1..][i]), key(s[1..][j]), order) {
      assert s[1..][i] == s[i + 1] && s[1..][j] == s[j + 1];
    }
  }

  /** The ties of a sequence are those of its head followed by those of its tail. */
  lemma TiesCons<T>(y: T, s: seq<T>, key: T -> real, v: real)
    ensures Ties([y] + s, key, v) == (if key(y) == v then [y] else []) + Ties(s, key, v)
  {
    assert ([y] + s)[1..] == s;
  }

  /** Inserting `x` appends it to the ties of its own key and leaves every other key's ties. */
  lemma {:induction false} InsertTies<T>(x: T, s: seq<T>, cmp: (T, T) -> real, key: T -> real, order: Order, v: real)
    requires Ordered(s, key, order)
    requires Realises(cmp, key, order, [x] + s)
    ensures Ties(Insert(x, s, cmp), key, v) == Ties(s, key, v) + (if key(x) == v then [x] else [])
  {
    if |s| == 0 {
      assert Insert(x, s, cmp) == [x];
    } else if cmp(x, s[0]) < 0.0 {
      assert Insert(x, s, cmp) == [x] + s;
      TiesCons(x, s, key, v);
      if key(x) == v {
        HeadPrecedesAll(x, s, cmp, key, order);
        TiesNone(s, key, v);
      }
    } else {
      var r := Insert(x, s[1..], cmp);
      assert Insert(x, s, cmp) == [s[0]] + r;
      TailRealises(x, s, cmp, key, order);
      OrderedTail(s, key, order);
      InsertTies(x, s[1..], cmp, key, order, v);
      TiesCons(s[0], r, key, v);
      TiesCons(s[0], s[1..], key, v);
      assert [s[0]] + s[1..] == s;
    }
  }

  /** The last element and the sorted rest are all elements of `s`. */
  lemma SortStepRealises<T>(s: seq<T>, cmp: (T, T) -> real, key: T -> real, order: Order)
    requires |s| > 0
    requires Realises(cmp, key, order, s)
    ensures Realises(cmp, key, order, s[..|s| - 1])
    ensures Realises(cmp, key, order, [s[|s| - 1]] + Sort(s[..|s| - 1], cmp))
  {
    var init, x := s[..|s| - 1], s[|s| - 1];
    assert s == init + [x];
    RealisesOnSubset(cmp, key, order, s, init);
    var sorted := Sort(init, cmp);
    forall a | a in [x] + sorted ensures a in s {
      if a != x {
        assert a in multiset(sorted);
      }
    }
    RealisesOnSubset(cmp, key, order, s, [x] + sorted);
  }

  lemma {:induction false} SortOrdered<T>(s: seq<T>, cmp: (T, T) -> real, key: T -> real, order: Order)
    requires Realises(cmp, key, order, s)
    ensures Ordered(Sort(s, cmp), key, order)
  {
    if |s| > 0 {
      SortStepRealises(s, cmp, key, order);
      SortOrdered(s[..|s| - 1], cmp, key, order);
      InsertOrdered(s[|s| - 1], Sort(s[..|s| - 1], cmp), cmp, key, order);
    }
  }

  lemma {:induction false} SortTies<T>(s: seq<T>, cmp: (T, T) -> real, key: T -> real, order: Order, v: real)
    requires Realises(cmp, key, order, s)
    ensures Ties(Sort(s, cmp), key, v) == Ties(s, key, v)
  {
    if |s| > 0 {
      var init, x := s[..|s| - 1], s[|s| - 1];
      assert s == init + [x];
      SortStepRealises(s, cmp, key, order);
      SortOrdered(init, cmp, key, order);
      SortTies(init, cmp, key, order, v);
      InsertTies(x, Sort(init, cmp), cmp, key, order, v);
      TiesAppend(init, [x], key, v);
    }
  }

  /** The sort of `s` under a comparator that `key` and `order` realise on `s`: a permutation,
      sorted by `key` in direction `order`, with the ties of every key in input order. */
  lemma SortCorrect<T>(s: seq<T>, cmp: (T, T) -> real, key: T -> real, order: Order)
    requires Realises(cmp, key, order, s)
    ensures multiset(Sort(s, cmp)) == multiset(s)
    ensures Ordered(Sort(s, cmp), key, order)
    ensures forall v :: Ties(Sort(s, cmp), key, v) == Ties(s, key, v)
  {
    SortOrdered(s, cmp, key, order);
    forall v ensures Ties(Sort(s, cmp), key, v) == Ties(s, key, v) {
      SortTies(s, cmp, key, order, v);
    }
  }

  /** Inserting an element that ties with (or follows) everything appends it. */
  lemma {:induction false} InsertLast<T>(x: T, s: seq<T>, cmp: (T, T) -> real)
    requires forall i :: 0 <= i < |s| ==> cmp(x, s[i]) >= 0.0
    ensures Insert(x, s, cmp) == s + [x]
  {
    if |s| > 0 {
      InsertLast(x, s[1..], cmp);
    }
  }

  /** A comparator that says every pair ties (every comparison 0, or NaN) leaves the order. */
  lemma {:induction false} SortKeepsOrder<T>(s: seq<T>, cmp: (T, T) -> real)
    requires forall a, b | a in s && b in s :: cmp(a, b) == 0.0
    ensures Sort(s, cmp) == s
  {
    if |s| > 0 {
      var init, x := s[..|s| - 1], s[|s| - 1];
      assert s == init + [x];
      assert forall a | a in init :: a in s;
      SortKeepsOrder(init, cmp);
      forall i | 0 <= i < |init| ensures cmp(x, init[i]) >= 0.0 {
        assert init[i] in s;
      }
      InsertLast(x, init, cmp);
    }
  }
}

=== FILE: submission.dfy ===
/**
 * What the creation forms do once the store call has returned: a truthy result sends the user to
 * the group's page, a falsy result or a thrown error leaves them on the form with a message.
 */
module Submission {

  /** How the store call ended. */
  datatype CallResult = Truthy | Falsy | Threw

  datatype Outcome = Navigate(path: string) | ShowError(message: string)

  function GroupPage(groupId: string): string {
    "/groups/" + groupId
  }

  function AfterCall(groupId: string, result: CallResult, failure: string): (r: Outcome)
    ensures r.Navigate? <==> result == Truthy
    ensures r.Navigate? ==> r.path == GroupPage(groupId)
    ensures r.ShowError? ==> r.message == failure
  {
    if result == Truthy then Navigate(GroupPage(groupId)) else ShowError(failure)
  }
}

=== FILE: text.dfy ===
/**
 * The two pieces of JavaScript's string handling the forms and cards rely on:
 * `String.prototype.trim` and the global `parseInt` with no radix.
 */
module Text {
  import opened Wrappers

  /** The characters `trim` and `parseInt` skip: ECMAScript's WhiteSpace (tab, vertical tab,
      form feed, space, no-break space, byte-order mark and the Unicode space separators) and
      LineTerminator (line feed, carriage return, line and paragraph separators). */
  predicate IsWhiteSpace(c: char) {
    c == '\U{9}' || c == '\U{B}' || c == '\U{C}' || c == '\U{20}' || c == '\U{A0}' || c == '\U{FEFF}'
    || c == '\U{1680}' || ('\U{2000}' <= c <= '\U{200A}') || c == '\U{202F}' || c == '\U{205F}' || c == '\U{3000}'
    || c == '\U{A}' || c == '\U{D}' || c == '\U{2028}' || c == '\U{2029}'
  }

  predicate AllBlank(s: string) {
    forall i :: 0 <= i < |s| ==> IsWhiteSpace(s[i])
  }

  /** The number of white-space characters `s` starts with. */
  function LeadingBlanks(s: string): (k: nat)
    ensures k <= |s|
    ensures forall i :: 0 <= i < k ==> IsWhiteSpace(s[i])
    ensures k < |s| ==> !IsWhiteSpace(s[k])
  {
    if |s| > 0 && IsWhiteSpace(s[0]) then 1 + LeadingBlanks(s[1..]) else 0
  }

  /** The number of white-space characters `s` ends with. */
  function TrailingBlanks(s: string): (k: nat)
    ensures k <= |s|
    ensures forall i :: |s| - k <= i < |s| ==> IsWhiteSpace(s[i])
    ensures k < |s| ==> !IsWhiteSpace(s[|s| - k - 1])
  {
    if |s| > 0 && IsWhiteSpace(s[|s| - 1]) then 1 + TrailingBlanks(s[..|s| - 1]) else 0
  }

  /** `s` without its leading white space. */
  function TrimStart(s: string): string {
    s[LeadingBlanks(s)..]
  }

  /** A string that does not start with white space is its own `trimStart`. */
  lemma TrimStartNonBlank(s: string)
    requires |s| > 0 && !IsWhiteSpace(s[0])
    ensures TrimStart(s) == s
  {
    assert LeadingBlanks(s) == 0;
  }

  /** `s` without its trailing white space. */
  function TrimEnd(s: string): string {
    s[..|s| - TrailingBlanks(s)]
  }

  /** `String.prototype.trim`. */
  function Trim(s: string): string {
    TrimEnd(TrimStart(s))
  }

  /** `s.trim()` is empty exactly when every character of `s` is white space. */
  lemma TrimEmptyIffBlank(s: string)
    ensures Trim(s) == "" <==> AllBlank(s)
  {
    var k := LeadingBlanks(s);
    var t := s[k..];
    if k < |s| {
      assert t[0] == s[k];
      assert TrailingBlanks(t) < |t|;
    }
  }

  /** The value of a digit character in base 16 or lower, if it is one. */
  function DigitValue(c: char): Option<nat> {
    if '0' <= c <= '9' then Some(c as int - '0' as int)
    else if 'a' <= c <= 'f' then Some(c as int - 'a' as int + 10)
    else if 'A' <= c <= 'F' then Some(c as int - 'A' as int + 10)
    else None
  }

  predicate IsDigit(c: char, radix: nat) {
    DigitValue(c).Some? && DigitValue(c).value < radix
  }

  /** The length of the leading run of digits of `s` in base `radix`. */
  function DigitRun(s: string, radix: nat): (n: nat)
    ensures n <= |s|
    ensures forall i :: 0 <= i < n ==> IsDigit(s[i], radix)
    ensures n < |s| ==> !IsDigit(s[n], radix)
  {
    if |s| > 0 && IsDigit(s[0], radix) then 1 + DigitRun(s[1..], radix) else 0
  }

  /** The number a run of digits denotes in base `radix`. */
  function ValueOf(s: string, radix: nat): nat {
    if |s| == 0 then 0 else ValueOf(s[..|s| - 1], radix) * radix + DigitValue(s[|s| - 1]).GetOr(0)
  }

  /** The digits after the sign: base 16 after a `0x` or `0X` prefix, base 10 otherwise, up to
      the first character that is not a digit; `None` when there is none. */
  function ParseUnsigned(u: string): Option<nat> {
    var hex := |u| >= 2 && u[0] == '0' && (u[1] == 'x' || u[1] == 'X');
    var radix := if hex then 16 else 10;
    var z := if hex then u[2..] else u;
    var n := DigitRun(z, radix);
    if n == 0 then None else Some(ValueOf(z[..n], radix))
  }

  /** `parseInt(s)`: skip leading white space, take an optional sign and read the digits after
      it; `None` is NaN, when no digit was read. The sign of zero is not kept. */
  function ParseInt(s: string): Option<int> {
    var t := TrimStart(s);
    var sign := if |t| > 0 && t[0] == '-' then -1 else 1;
    var u := if |t| > 0 && (t[0] == '-' || t[0] == '+') then t[1..] else t;
    match ParseUnsigned(u)
    case None => None
    case Some(v) => Some(sign * v)
  }

  /** The decimal numeral of `n`, without leading zeros. */
  function Decimal(n: nat): (r: string)
    ensures |r| > 0
    ensures forall i :: 0 <= i < |r| ==> IsDigit(r[i], 10)
    ensures |r| >= 2 ==> r[0] != '0'
  {
    if n < 10 then ['0' + n as char] else Decimal(n / 10) + ['0' + (n % 10) as char]
  }

  /** The numeral JavaScript prints for an integer. */
  function IntString(n: int): string {
    if n < 0 then "-" + Decimal(-n) else Decimal(n)
  }

  lemma {:induction false} DecimalValue(n: nat)
    ensures ValueOf(Decimal(n), 10) == n
  {
    if n >= 10 {
      DecimalValue(n / 10);
      var d := Decimal(n);
      assert d[..|d| - 1] == Decimal(n / 10);
    }
  }

  lemma {:induction false} DigitRunAppend(a: string, b: string, radix: nat)
    requires forall i :: 0 <= i < |a| ==> IsDigit(a[i], radix)
    requires b == [] || !IsDigit(b[0], radix)
    ensures DigitRun(a + b, radix) == |a|
  {
    if |a| > 0 {
      assert (a + b)[1..] == a[1..] + b;
      DigitRunAppend(a[1..], b, radix);
    }
  }

  /** What may follow the numeral of `m` without being read as part of it: nothing, or a
      character that is not a decimal digit and, after the numeral `0`, not the `x` that would
      make `0x` a hex prefix. */
  predicate StopsNumeral(m: nat, rest: string) {
    rest == [] || !(IsDigit(rest[0], 10) || (m == 0 && (rest[0] == 'x' || rest[0] == 'X')))
  }

  /** The unsigned digits of a numeral are read back up to its end. */
  lemma {:induction false} UnsignedReadsNumeral(m: nat, rest: string)
    requires StopsNumeral(m, rest)
    ensures ParseUnsigned(Decimal(m) + rest) == Some(m)
  {
    var d := Decimal(m);
    var u := d + rest;
    assert !(|u| >= 2 && u[0] == '0' && (u[1] == 'x' || u[1] == 'X')) by {
      if |d| >= 2 {
        assert u[0] == d[0];
      } else if |u| >= 2 {
        assert u[1] == rest[0];
      }
    }
    DigitRunAppend(d, rest, 10);
    assert u[..|d|] == d;
    DecimalValue(m);
  }

  /** A string that starts with a digit is read unsigned. */
  lemma {:induction false} ParseIntOfDigits(u: string, v: nat)
    requires |u| > 0 && IsDigit(u[0], 10) && ParseUnsigned(u) == Some(v)
    ensures ParseInt(u) == Some(v)
  {
    assert !IsWhiteSpace(u[0]);
    TrimStartNonBlank(u);
  }

  /** A `-` followed by digits is read as their negation. */
  lemma {:induction false} ParseIntOfMinus(s: string, v: nat)
    requires |s| > 0 && s[0] == '-' && ParseUnsigned(s[1..]) == Some(v)
    ensures ParseInt(s) == Some(-(v as int))
  {
    TrimStartNonBlank(s);
  }

  /** The same, for a string put together from the digits and what follows them. */
  lemma {:induction false} ParseIntOfMinusThen(digits: string, rest: string, v: nat)
    requires ParseUnsigned(digits + rest) == Some(v)
    ensures ParseInt("-" + digits + rest) == Some(-(v as int))
  {
    var s := "-" + digits + rest;
    assert s[1..] == digits + rest;
    ParseIntOfMinus(s, v);
  }

  /** A non-negative numeral is read back up to its end. */
  lemma {:induction false} ParseIntReadsDecimal(m: nat, rest: string)
    requires StopsNumeral(m, rest)
    ensures ParseInt(Decimal(m) + rest) == Some(m)
  {
    var u := Decimal(m) + rest;
    UnsignedReadsNumeral(m, rest);
    assert u[0] == Decimal(m)[0];
    ParseIntOfDigits(u, m);
  }

  /** A negative numeral is read back up to its end. */
  lemma {:induction false} ParseIntReadsMinusDecimal(m: nat, rest: string)
    requires StopsNumeral(m, rest)
    ensures ParseInt("-" + Decimal(m) + rest) == Some(-(m as int))
  {
    UnsignedReadsNumeral(m, rest);
    ParseIntOfMinusThen(Decimal(m), rest, m);
  }

  /** `parseInt` reads back the numeral of any integer, and stops where the numeral ends: text
      after it that does not start with a digit (or, after `0`, an `x` that would make a hex
      prefix) is ignored, so `parseInt("350ml")` is 350 and `parseInt("5x")` is 5. */
  lemma {:induction false} ParseIntReadsNumeral(n: int, rest: string)
    requires StopsNumeral(if n < 0 then -n else n, rest)
    ensures ParseInt(IntString(n) + rest) == Some(n)
  {
    if n < 0 {
      ParseIntReadsMinusDecimal(-n, rest);
    } else {
      ParseIntReadsDecimal(n, rest);
    }
  }
}

=== FILE: wrappers.dfy ===
/** Optional values. On a record field, `None` is a field absent from the payload (JavaScript
    `undefined`); a field sent as `null` is not told apart from an absent one. */
module Wrappers {

  datatype Option<+T> = None | Some(value: T) {

    /** The value if present, otherwise `default` (the `x || default` idiom on a value that
        is either absent or holds a number). */
    function GetOr(default: T): T {
      match this
      case Some(v) => v
      case None => default
    }
  }
}
